=== FILE: README.md ===
# A verified model of the fusidic/orm object-relational mapper

fusidic/orm maps Go structs to SQL tables. An `Engine` holds a database
connection and a dialect. It hands out `Session`s. A session buffers SQL
text and bound values, keeps a clause table of statement intents (`SELECT`,
`WHERE`, `LIMIT`, ...) and caches the schema parsed from the last record
type it was bound to. Record operations (`Insert`, `Find`, `First`,
`Update`, `Delete`, `Count`) each set a few intents, build them in a fixed
order and send one statement. The engine wraps work in a transaction with
a commit/rollback decision table. It also migrates a table towards a struct
declaration: it adds missing columns and rebuilds the table when it has
undeclared ones.

This Dafny project models that core as immutable data and pure functions:

- `Values`: Go `interface{}` values, errors, `Option`/`Result`, and `strings.Join` / `strings.Split` with their round trip.
- `Clause`: the clause table, `Set` and `Build`.
- `Dialect`: the dialect capability and the name-to-dialect registry.
- `Schema`: struct descriptors, `Parse` and `GetField`.
- `Session`: the statement buffer and `Raw`, `Exec`, `QueryRow`, `QueryRows`, `Clear`.
- `Table`: `Model`, `CreateTable`, `DropTable`, `HasTable`.
- `Record`: the record operations and the chained intents `Where`, `OrderBy`, `Limit`.
- `Orm`: `difference`, `Transaction`, the migration plan and `Migrate`.

The database is an oracle. Each `Db` value carries the requests it has
received, in order. It answers every request as a function of that whole
history, so any deterministic database is one choice of the four answer
functions. `Begin`, `Commit` and `Rollback` are requests in the same
history. Statements always go to the base connection (`pkg/session/raw.go:55`),
also while a transaction is open; the model keeps that.

Code the session calls but that is not part of this model becomes function
values in `Session.Collaborators`:
- the clause generators (`generators[kind]`);
- `Schema.RecordValues`;
- the dialect's `DataTypeOf` and `TableExistSQL`.

Properties are stated for every choice of these functions.

A session is *coherent* when its cached schema is what `Parse` derives from
the cached model. `New` creates coherent sessions, and every operation keeps
them coherent. Several statement-level contracts are stated for coherent
sessions.

`pkg/clause/clause.go:15-22` declares six intent kinds. `pkg/session/record.go`
also uses `UPDATE`, `DELETE` and `COUNT`, which that file does not declare.
The model follows the record operations and has nine kinds.

## Model

| member | source | states |
|---|---|---|
| Values.SplitJoin | pkg/session/table.go:32-36 | splitting a `strings.Join` result on the one-character separator gives back the parts, when no part contains the separator |
| Values.JoinAppend | pkg/clause/clause.go:47 | joining two non-empty lists puts exactly one separator between their joins |
| Clause.Set | pkg/clause/clause.go:26-35 | afterwards the kind maps to the generator's fragment for the arguments; the key set gains that kind; every other kind keeps its fragment |
| Clause.SetOverwrites | pkg/clause/clause.go:32-34 | a second `Set` of a kind replaces the first; nothing accumulates |
| Clause.PresentLength | pkg/clause/clause.go:41-46 | `Build` collects one fragment per listed kind that has one, in list order, repeats kept |
| Clause.BuildEmpty | pkg/clause/clause.go:38-48 | a clause never `Set` builds the empty text with no values, whatever the order list |
| Clause.BuildSkipsMissing | pkg/clause/clause.go:42 | a listed kind without a fragment contributes neither text nor values |
| Clause.BuildAppend | pkg/clause/clause.go:38-48 | building two lists in sequence concatenates their values, and joins their texts with exactly one space when both contribute |
| Clause.BuildOnlySetKind | pkg/clause/clause.go:38-48 | a table holding only the second of two listed kinds builds exactly that kind's fragment, text and values |
| Clause.BuildRepeats | pkg/clause/clause.go:41-46 | a kind listed twice is emitted twice |
| Clause.BuildLeading | pkg/clause/clause.go:26-48 | setting a kind and building it first yields its new fragment, followed by what the other listed kinds held before |
| Dialect.RegisterDialect | pkg/dialect/dialect.go:15-17 | the name maps to the new dialect and every other name keeps its dialect |
| Dialect.GetDialect | pkg/dialect/dialect.go:20-23 | a lookup succeeds exactly when the name is registered, and returns that name's dialect |
| Dialect.LookupAfterRegister | pkg/dialect/dialect.go:15-23 | after registering a name, looking it up gives the new dialect (a second registration replaces the first); every other name looks up as before |
| Dialect.LookupNeverRegistered | pkg/dialect/dialect.go:5-23 | a name never passed to `RegisterDialect` is not found |
| Dialect.RegisteredNames | pkg/dialect/dialect.go:15-17 | registering a list of dialects adds exactly their names to the registry |
| Schema.Parse | pkg/schema/schema.go:41-66 | the schema keeps the model and the struct's name, and its name list and lookup map agree with its field list |
| Schema.FieldOrigin | pkg/schema/schema.go:52-62 | every column comes from a non-embedded exported member, with that member's name, dialect type and `orm` tag |
| Schema.FieldsOfAppend | pkg/schema/schema.go:52-62 | the columns of two member lists in sequence are the first list's columns followed by the second's, so columns keep declaration order |
| Schema.KeptBecomesField | pkg/schema/schema.go:52-62 | every non-embedded exported member becomes a column |
| Schema.ParseKeepsExactly | pkg/schema/schema.go:49-64 | for any struct Go accepts (non-blank member names unique, any number of blank `_` members), a member's name is a column name exactly when the member is non-embedded and exported |
| Schema.FieldNamesDistinct | pkg/schema/schema.go:61 | column names are distinct, because non-blank member names are and a blank member is never a column |
| Schema.GetField | pkg/schema/schema.go:36-38 | the lookup finds a field exactly when the name is a key of the field map |
| Schema.GetFieldOfParse | pkg/schema/schema.go:36-66 | for any struct Go accepts (non-blank member names unique), after `Parse` every column name resolves to its own field, and any other name resolves to nil |
| Schema.GetFieldOfValid | pkg/schema/schema.go:36-38 | in a consistent schema every column name resolves to a field of that name |
| Schema.IndexLastWins | pkg/schema/schema.go:62 | the field map holds, for each name, the last field with that name |
| Session.New | pkg/session/raw.go:24-29 | a new session has an empty buffer, no values, an empty clause table and no cached schema |
| Session.Clear | pkg/session/raw.go:32-36 | clearing empties the buffer, the values and the clause table and keeps the connection, dialect and cached schema |
| Session.SetClause | pkg/clause/clause.go:26-35 | the kind holds the generator's fragment for the arguments, every other kind keeps its entry or its absence, and nothing outside the clause table changes |
| Session.Raw | pkg/session/raw.go:44-49 | the buffer grows by the text and one space, the values by the arguments, and nothing is sent |
| Session.Exec | pkg/session/raw.go:52-59 | exactly the buffered statement is sent once; the reply is the database's answer to it; the session is cleared |
| Session.QueryRow | pkg/session/raw.go:62-66 | as `Exec`, through the single-row entry point |
| Session.QueryRows | pkg/session/raw.go:69-76 | as `Exec`, through the result-set entry point; the session is cleared on error too |
| Session.RawCycle | pkg/session/raw.go:44-59 | from a cleared session, a chain of `Raw`s then `Exec` sends the texts, each followed by one space, with the values in call order, and the session is cleared again |
| Table.Model | pkg/session/table.go:13-19 | the cache is re-parsed exactly when nothing is cached or the value's type differs; a value of the cached type changes nothing; coherence is kept |
| Table.ModelDescribesType | pkg/session/table.go:13-19 | for a coherent session, the bound schema is the value type's declared schema, whatever was cached before |
| Table.ModelIdempotent | pkg/session/table.go:15 | binding a second value of the same type changes nothing |
| Table.CreateTable | pkg/session/table.go:30-39 | sends `CREATE TABLE <name> (<columns>);` after the buffer and returns the database's error |
| Table.CreateTableColumns | pkg/session/table.go:32-36 | the column list splits back on `,` into one `name type tag` definition per field, in field order |
| Table.CreateTableUser | pkg/session/table.go:30-39 | the `User{Name string "PRIMARY KEY"; Age int}` table is created as `CREATE TABLE User (Name text PRIMARY KEY,Age integer );` |
| Table.DropTable | pkg/session/table.go:42-45 | sends `DROP TABLE IF EXISTS <name>` after the buffer and returns the database's error |
| Table.HasTable | pkg/session/table.go:48-54 | sends the dialect's probe; the answer is true exactly when the scanned text equals the table name, and for a non-empty name exactly when the row is that name |
| Record.PrepareInsert | pkg/session/record.go:13-20 | one values tuple per record; for a coherent session INSERT holds the last record's table and the session is bound to its type; nothing else in the clause table changes and nothing is sent |
| Record.PreparedTuples | pkg/session/record.go:13-20 | for a coherent session the tuples are, in argument order, each record's values over its own declared columns |
| Record.Insert | pkg/session/record.go:11-30 | one statement is sent: the last record's INSERT, one space, then VALUES over all tuples, with the values in that order; the result is the database's reply |
| Record.ScanAll | pkg/session/record.go:52-64 | the destination grows by one element per scanned row, in row order, and stops at the first row that fails to scan, whose error is returned |
| Record.Find | pkg/session/record.go:33-66 | one query: SELECT for the element type, then the WHERE, ORDER BY and LIMIT intents in that order; a query error leaves the destination unchanged; otherwise the scanned rows are appended, with the first scan error or else the error of `Close` |
| Record.First | pkg/session/record.go:134-146 | one query is sent after the old history, and it carries LIMIT 1; a query error is returned; otherwise the error of the first row that fails to scan is returned; when every row scans, `Close`'s error is returned, else no rows gives "NOT FOUND" and a row gives the first row scanned |
| Record.FirstFromCollected | pkg/session/record.go:137-145 | into an empty destination, `Find`'s result read as `First` reads it is the first failing row's error, else `Close`'s error, else "NOT FOUND" or the first row |
| Record.PairsLastWins | pkg/session/record.go:74-77 | in key/value-list form, a key is assigned the value paired with its last occurrence |
| Record.PairsKeys | pkg/session/record.go:74-77 | in key/value-list form, exactly the listed keys are assigned |
| Record.Update | pkg/session/record.go:69-86 | one statement: UPDATE of the cached table with the assignments, then the WHERE intent; the result is the database's reply; the database, dialect and builder are unchanged |
| Record.Delete | pkg/session/record.go:89-99 | one statement: DELETE of the cached table, then the WHERE intent; the database, dialect and builder are unchanged |
| Record.Count | pkg/session/record.go:102-111 | one single-row query: COUNT of the cached table, then the WHERE intent; the result is the row's one integer cell, or the error; the database, dialect and builder are unchanged |
| Record.ScanCount | pkg/session/record.go:106-110 | the scan succeeds exactly when the row is one integer cell, and then yields it |
| Record.Limit | pkg/session/record.go:114-117 | sets LIMIT to the number; nothing else changes and nothing is sent |
| Record.Where | pkg/session/record.go:120-125 | sets WHERE with the condition first and its arguments after; nothing is sent |
| Record.OrderBy | pkg/session/record.go:128-131 | sets ORDERBY; nothing is sent |
| Record.WhereReplaces | pkg/session/record.go:120-125 | a second `Where` replaces the first |
| Record.ChainedFind | pkg/session/record.go:33-46 | `Where(...).OrderBy(...).Limit(n).Find(...)` from a cleared session sends SELECT, WHERE, ORDER BY and LIMIT one space apart, with their values in the same order |
| Orm.DifferenceMembers | pkg/orm/orm.go:87-98 | an element is in the result exactly when it is in `a` and not in `b` |
| Orm.DifferenceCounts | pkg/orm/orm.go:87-98 | an element outside `b` occurs in the result as often as in `a`; an element of `b` never |
| Orm.DifferenceAppend | pkg/orm/orm.go:92-96 | the difference of a concatenation is the concatenation of the differences, so `a`'s order is kept |
| Orm.DifferenceByLookup | pkg/orm/orm.go:87-98 | the lookup-set loop computes exactly `Difference` |
| Orm.NewSession | pkg/orm/orm.go:51-53 | a fresh, cleared, coherent session over the engine's connection and dialect |
| Orm.CommittedHistory | pkg/orm/orm.go:61-84 | a transaction that commits had a successful `Begin`, a work that succeeded, and sent `Commit` right after the work's statements |
| Orm.Transaction | pkg/orm/orm.go:61-84 | a failed `Begin` returns its error without running the work; a panic or error from the work is followed by `Rollback` and passed on unchanged; success is followed by `Commit`; a commit error becomes the result and the history ends with `Commit` then `Rollback`; the work's result value is kept |
| Orm.BeginFailureIgnoresWork | pkg/orm/orm.go:63-65 | when `Begin` fails, the result does not depend on the work |
| Orm.PanicRollsBackAndRethrows | pkg/orm/orm.go:67-69 | a panicking work ends in `Rollback` and the same panic value |
| Orm.AddColumnsTrace | pkg/orm/orm.go:117-123 | the loop sends one `ALTER TABLE <t> ADD COLUMN <c> <type>;` per name, in order; every statement but the last succeeded; the last failed exactly when the loop returns its error, so it succeeded also when the loop stopped at a name `GetField` does not know |
| Orm.AddsSentPrefix | pkg/orm/orm.go:117-123 | the statements the loop sent for its first names are the first statements of the planned additions |
| Orm.AddMissing | pkg/orm/orm.go:117-123 | a failed addition returns its error after a non-empty prefix of the additions, every addition before it having succeeded; a nil return sent exactly the additions, all succeeding; a panic happens only at the first name `GetField` does not know, after every earlier addition succeeded |
| Orm.AddMissingPanicsAtUnknown | pkg/orm/orm.go:117-123 | when every addition before the first unknown name succeeds, the loop reaches that name and panics, having sent exactly those additions |
| Orm.AddColumnsExecs | pkg/orm/orm.go:117-123 | every addition the loop sent succeeded, except the last one when the loop returns an error |
| Orm.AddColumnsStopsAtUnknown | pkg/orm/orm.go:117-123 | the loop stops at a name `GetField` does not know only at the first such name, after sending the additions for the names before it |
| Orm.AddColumnsFindsDeclared | pkg/orm/orm.go:118 | for a consistent schema and declared names, `GetField` never returns nil in the loop |
| Orm.PlanReachesDeclared | pkg/orm/orm.go:112-135 | carrying out the plan leaves exactly the declared columns after a rebuild; otherwise the old columns stay and the missing ones follow, giving the declared set |
| Orm.PlanEmptyIffInSync | pkg/orm/orm.go:112-127 | nothing is planned exactly when the live and declared columns are the same set |
| Orm.UserMigrationPlan | pkg/orm/orm_test.go:73-86 | live `Name, XXX` against declared `Name, Age` plans one `Age` addition and a rebuild, ending with `Name, Age` |
| Orm.Reconcile | pkg/orm/orm.go:112-136 | a nil return sent exactly the plan, every statement succeeding; an error is the reply to the last statement, every earlier one succeeded, and what was sent is a non-empty prefix of the plan; a consistent schema never hits the nil field |
| Orm.RebuildIfStale | pkg/orm/orm.go:125-136 | the rebuild statement is sent exactly when the table has an undeclared column, and then the result is its reply's error; otherwise nothing is sent and nil is returned |
| Orm.RebuildTable | pkg/orm/orm.go:130-136 | one statement: copy to `tmp_<t>` with the declared columns joined by ", ", drop, rename; its error is returned |
| Orm.ReadAndReconcile | pkg/orm/orm.go:108-136 | the column read comes first; if it fails the work panics on the nil result set; otherwise a nil return sent exactly the plan for the live columns, every statement succeeding, and an error return sent a non-empty prefix of it whose statements all succeeded but the last |
| Orm.MigrateWork | pkg/orm/orm.go:102-137 | an absent table is created and nothing else is sent; a coherent session panics only on a failed column read; a nil return for an existing table sent the two probes and then the plan, every statement succeeding; an error is the reply to the last statement, and for an existing table comes after the two probes and a non-empty prefix of the plan whose earlier statements all succeeded |
| Orm.MigrateCommits | pkg/orm/orm.go:101-139 | a migration that commits sent `Begin`, the probe, then either the create or the column read and the plan, every plan statement succeeding, then `Commit` |

## Left out

- Database I/O: the connection, result sets, `Scan` conversions and `Columns` are the oracle's answers. `Scan` binds cells to member names without type conversion. The mismatch error's text is not database/sql's.
- Hooks (`CallMethod`, `BeforeInsert`, `AfterQuery`, ...): that code is not part of this model, and they are not modelled.
- Logging (`log.*`) is left out; so is the log line of `GetRefTable`.
- `NewEngine` and `Close` (pkg/orm/orm.go:20-48) open, ping and close the connection. They are left out; an `Engine` is built from a connection value and a dialect.
- `Begin`, `Commit` and `Rollback` (pkg/session/transaction.go) use a `tx` field the shown `Session` does not declare. They are requests to the connection, and `Transaction` decides from their replies. The error of `Rollback` is ignored, as the source only logs it.
- Go panics are outcome values. A nil dereference panics with a fixed runtime-error text.
- Schema.Parse: the record is a struct or a non-nil pointer to one, which is all `GoType` can represent. A nil pointer panics in `reflect.Indirect(...).Type()` (pkg/schema/schema.go:42), and a non-struct value panics at `NumField` (pkg/schema/schema.go:49). Neither panic is modelled, so `Parse` and `Model` have no error path for them.
- Concurrency is left out; a session is used by one goroutine.
- Schema.IsExported: accepts ASCII upper-case initials only; Go also accepts non-ASCII upper-case letters.
- Dialect.Dialect: `DataTypeOf` receives the Go type's spelling instead of a reflected zero value.
- Table.CreateTable: requires a cached schema; the source dereferences a nil schema and panics.
- Table.DropTable: requires a cached schema, for the same reason.
- Table.HasTable: requires a cached schema, for the same reason.
- Record.Update: requires a cached schema and well-shaped arguments. The source panics on an empty argument list, a non-string key, or an odd-length list.
- Record.Delete: requires a cached schema, for the same reason.
- Record.Count: requires a cached schema, for the same reason. The count is an unbounded integer, not an `int64`.
- Record.Insert: the statement text is stated only for coherent sessions and at least one record. For no records, only that one statement is sent.
- Record.Find: the statement text is stated only for coherent sessions. For other sessions, only that one query is sent.
- Record.Find: the element type is the struct itself; slices of pointers are not modelled.
- Record.First: the statement text is stated only for coherent sessions, as for `Record.Find`. For other sessions, the contract says only that one query is sent after the old history.
- Orm.Migrate: its own contract states only the result value. The statements it sends are stated by `Orm.MigrateCommits` and `Orm.MigrateWork`.
- Orm.MigrateWork: the result set of the column read is never closed in the source; the model has no resource state.
- Orm.AddColumns: its own contract is about the session frame; the statements are stated by `Orm.AddColumnsTrace`.
- Clause.Build: the values of a kind come from the same generator call as its text; the source's two maps are one map of fragments here.
- Orm.Difference: its own contract states only the length bound; membership and multiplicities are stated by `Orm.DifferenceMembers` and `Orm.DifferenceCounts`.
- Record.PrepareInsert: its own contract does not state the tuples' contents; `Record.PreparedTuples` does.

=== FILE: clause.dfy ===
/**
 * The clause builder of `pkg/clause`: a table from statement-intent kind to a
 * generated SQL fragment and its bound values. `Set` overwrites one kind;
 * `Build` assembles the stored fragments of the kinds the caller lists, in
 * the caller's order.
 *
 * The fragment generators (`generators[name]`) are not part of this model;
 * they are a `Generator` function value supplied by the caller.
 */
module Clause {
  import opened Values

  /** The nine intent kinds the record operations use. */
  datatype Kind = INSERT | VALUES | SELECT | LIMIT | WHERE | ORDERBY | UPDATE | DELETE | COUNT

  /** A generated SQL fragment together with the values bound to its `?`s. */
  datatype Fragment = Fragment(sql: string, vars: seq<Value>)

  /** `generators[kind](args...)`. */
  type Generator = (Kind, seq<Value>) -> Fragment

  /**
   * The Go struct keeps two maps (`sql`, `sqlVars`) that are always written
   * together, so their key sets coincide; one map of fragments is the same
   * information.
   */
  datatype Clause = Clause(entries: map<Kind, Fragment>)

  /** The zero `Clause{}`: both maps nil, so every lookup misses. */
  const Empty: Clause := Clause(map[])

  /** `c.Set(kind, args...)`. */
  function Set(c: Clause, gen: Generator, kind: Kind, args: seq<Value>): (r: Clause)
    ensures kind in r.entries && r.entries[kind] == gen(kind, args)
    ensures r.entries.Keys == c.entries.Keys + {kind}
    ensures forall k :: k in c.entries && k != kind ==> r.entries[k] == c.entries[k]
  {
    Clause(c.entries[kind := gen(kind, args)])
  }

  /** The stored fragments of the listed kinds that have one, in list order. */
  function Present(c: Clause, orders: seq<Kind>): (r: seq<Fragment>)
  {
    if |orders| == 0 then []
    else if orders[0] in c.entries then [c.entries[orders[0]]] + Present(c, orders[1..])
    else Present(c, orders[1..])
  }

  function Texts(fs: seq<Fragment>): (r: seq<string>)
    ensures |r| == |fs|
    ensures forall i :: 0 <= i < |fs| ==> r[i] == fs[i].sql
  {
    seq(|fs|, i requires 0 <= i < |fs| => fs[i].sql)
  }

  function VarLists(fs: seq<Fragment>): (r: seq<seq<Value>>)
    ensures |r| == |fs|
    ensures forall i :: 0 <= i < |fs| ==> r[i] == fs[i].vars
  {
    seq(|fs|, i requires 0 <= i < |fs| => fs[i].vars)
  }

  /** `c.Build(orders...)`: collect, then `strings.Join(sqls, " ")`. */
  function Build(c: Clause, orders: seq<Kind>): (r: Fragment)
  {
    var present := Present(c, orders);
    Fragment(Join(Texts(present), " "), Flatten(VarLists(present)))
  }

  // ----- laws of Present -----

  lemma {:induction false} PresentAppend(c: Clause, xs: seq<Kind>, ys: seq<Kind>)
    ensures Present(c, xs + ys) == Present(c, xs) + Present(c, ys)
  {
    if |xs| == 0 {
      assert xs + ys == ys;
    } else {
      assert (xs + ys)[1..] == xs[1..] + ys;
      PresentAppend(c, xs[1..], ys);
    }
  }

  lemma {:induction false} PresentOfEmpty(orders: seq<Kind>)
    ensures Present(Empty, orders) == []
  {
    if |orders| > 0 {
      PresentOfEmpty(orders[1..]);
    }
  }

  /** Exactly the listed kinds that have an entry contribute, once per listing. */
  lemma {:induction false} PresentLength(c: Clause, orders: seq<Kind>)
    ensures |Present(c, orders)| == |Listed(c, orders)|
    ensures forall i :: 0 <= i < |Listed(c, orders)| ==>
      Present(c, orders)[i] == c.entries[Listed(c, orders)[i]]
  {
    if |orders| > 0 {
      PresentLength(c, orders[1..]);
    }
  }

  /** The listed kinds that have an entry, in list order, repeats kept. */
  function Listed(c: Clause, orders: seq<Kind>): (r: seq<Kind>)
    ensures forall i :: 0 <= i < |r| ==> r[i] in c.entries
  {
    if |orders| == 0 then []
    else if orders[0] in c.entries then [orders[0]] + Listed(c, orders[1..])
    else Listed(c, orders[1..])
  }

  /** A kind is listed exactly when it is ordered and has an entry. */
  lemma {:induction false} ListedMembers(c: Clause, orders: seq<Kind>)
    ensures forall k :: k in Listed(c, orders) <==> k in orders && k in c.entries
  {
    if |orders| > 0 {
      ListedMembers(c, orders[1..]);
      assert orders == [orders[0]] + orders[1..];
    }
  }

  // ----- laws of Build -----

  /** A never-`Set` clause builds the empty statement with no values. */
  lemma BuildEmpty(orders: seq<Kind>)
    ensures Build(Empty, orders) == Fragment("", [])
  {
    PresentOfEmpty(orders);
  }

  /** A kind with no stored fragment contributes neither text nor values. */
  lemma BuildSkipsMissing(c: Clause, xs: seq<Kind>, k: Kind, ys: seq<Kind>)
    requires k !in c.entries
    ensures Build(c, xs + [k] + ys) == Build(c, xs + ys)
  {
    PresentAppend(c, xs + [k], ys);
    PresentAppend(c, xs, [k]);
    PresentAppend(c, xs, ys);
    assert [k][1..] == [];
    assert Present(c, [k]) == [];
    assert Present(c, xs + [k]) == Present(c, xs);
    assert Present(c, xs + [k] + ys) == Present(c, xs + ys);
  }

  /** Building one stored kind yields exactly its fragment. */
  lemma BuildSingle(c: Clause, k: Kind)
    requires k in c.entries
    ensures Build(c, [k]) == c.entries[k]
  {
    assert [k][1..] == [];
    var f := c.entries[k];
    assert Present(c, [k]) == [f];
    assert Texts([f]) == [f.sql];
    assert VarLists([f]) == [f.vars];
    assert Flatten([f.vars]) == f.vars + Flatten([f.vars][1..]);
  }

  /**
   * Building two lists one after the other: the values concatenate in list
   * order, and the texts are joined by exactly one space when both sides
   * contribute a fragment.
   */
  lemma BuildAppend(c: Clause, xs: seq<Kind>, ys: seq<Kind>)
    ensures Build(c, xs + ys).vars == Build(c, xs).vars + Build(c, ys).vars
    ensures Present(c, xs) == [] ==> Build(c, xs + ys) == Build(c, ys)
    ensures Present(c, ys) == [] ==> Build(c, xs + ys) == Build(c, xs)
    ensures Present(c, xs) != [] && Present(c, ys) != [] ==>
      Build(c, xs + ys).sql == Build(c, xs).sql + " " + Build(c, ys).sql
  {
    var px, py := Present(c, xs), Present(c, ys);
    PresentAppend(c, xs, ys);
    assert Texts(px + py) == Texts(px) + Texts(py);
    assert VarLists(px + py) == VarLists(px) + VarLists(py);
    FlattenAppend(VarLists(px), VarLists(py));
    if px != [] && py != [] {
      JoinAppend(Texts(px), Texts(py), " ");
    }
    if px == [] {
      assert px + py == py;
    }
    if py == [] {
      assert px + py == px;
    }
  }

  /** Build does not deduplicate: a kind listed twice is emitted twice. */
  lemma BuildRepeats(c: Clause, k: Kind)
    requires k in c.entries
    ensures Build(c, [k, k]) ==
      Fragment(c.entries[k].sql + " " + c.entries[k].sql, c.entries[k].vars + c.entries[k].vars)
  {
    BuildAppend(c, [k], [k]);
    BuildSingle(c, k);
    assert [k] + [k] == [k, k];
  }

  /** Setting a kind twice keeps only the second fragment: no accumulation. */
  lemma SetOverwrites(c: Clause, gen: Generator, k: Kind, a1: seq<Value>, a2: seq<Value>)
    ensures Set(Set(c, gen, k, a1), gen, k, a2) == Set(c, gen, k, a2)
    ensures Build(Set(Set(c, gen, k, a1), gen, k, a2), [k]) == gen(k, a2)
  {
    BuildSingle(Set(Set(c, gen, k, a1), gen, k, a2), k);
  }

  /** When only the second of two listed kinds is stored, only it is emitted. */
  lemma BuildOnlySetKind(gen: Generator, a: Kind, b: Kind, args: seq<Value>)
    requires a != b
    ensures Build(Set(Empty, gen, b, args), [a, b]) == gen(b, args)
  {
    var c := Set(Empty, gen, b, args);
    BuildSkipsMissing(c, [], a, [b]);
    assert [] + [a] + [b] == [a, b];
    assert [] + [b] == [b];
    BuildSingle(c, b);
  }

  /** Two clause tables that agree on the listed kinds present the same fragments. */
  lemma {:induction false} PresentFrame(c1: Clause, c2: Clause, kinds: seq<Kind>)
    requires forall k :: k in kinds ==> (k in c1.entries <==> k in c2.entries)
    requires forall k :: k in kinds && k in c1.entries ==> c1.entries[k] == c2.entries[k]
    ensures Present(c1, kinds) == Present(c2, kinds)
  {
    if |kinds| > 0 {
      PresentFrame(c1, c2, kinds[1..]);
    }
  }

  /**
   * A fragment followed by whatever the listed kinds already hold: one space
   * between them when they hold anything, and their values after its values.
   */
  function Then(first: Fragment, c: Clause, kinds: seq<Kind>): (r: Fragment)
  {
    if Present(c, kinds) == [] then first
    else Fragment(first.sql + " " + Build(c, kinds).sql, first.vars + Build(c, kinds).vars)
  }

  /**
   * Setting a kind and building it in front of other kinds: the new fragment
   * leads, and the other kinds contribute what they held before the `Set`.
   */
  lemma BuildLeading(c: Clause, gen: Generator, k: Kind, args: seq<Value>, rest: seq<Kind>)
    requires k !in rest
    ensures Build(Set(c, gen, k, args), [k] + rest) == Then(gen(k, args), c, rest)
  {
    var c' := Set(c, gen, k, args);
    PresentFrame(c', c, rest);
    BuildAppend(c', [k], rest);
    BuildSingle(c', k);
    if Present(c', rest) == [] {
      assert Build(c', rest) == Fragment("", []);
    }
  }
}

=== FILE: dialect.dfy ===
/**
 * The dialect capability of `pkg/dialect` and its name-to-dialect registry.
 * The registry is an explicit map value here rather than a package global.
 */
module Dialect {
  import opened Values

  /**
   * What a database dialect provides: the column type for a Go type (the Go
   * code passes a zero value of that type; here the type is named by its Go
   * spelling) and the query whose single cell equals the table name exactly
   * when the table exists.
   */
  datatype Dialect = Dialect(
    dataTypeOf: string -> string,
    tableExistSql: string -> (string, seq<Value>))

  /** `dialectsMap` before any `RegisterDialect` call. */
  function EmptyRegistry<D>(): (r: map<string, D>)
  {
    map[]
  }

  /** `RegisterDialect(name, d)`: the name now maps to `d`; others keep theirs. */
  function RegisterDialect<D>(registry: map<string, D>, name: string, d: D): (r: map<string, D>)
    ensures r.Keys == registry.Keys + {name}
    ensures r[name] == d
    ensures forall n :: n in registry && n != name ==> r[n] == registry[n]
  {
    registry[name := d]
  }

  /** `GetDialect(name)`: `(d, true)` when registered, `(nil, false)` otherwise. */
  function GetDialect<D>(registry: map<string, D>, name: string): (r: Option<D>)
    ensures r.Some? <==> name in registry
    ensures r.Some? ==> r.value == registry[name]
  {
    if name in registry then Some(registry[name]) else None
  }

  /**
   * Lookup after registration: the registered name yields the new dialect
   * (replacing any earlier one), every other name yields what it did before.
   */
  lemma LookupAfterRegister<D>(registry: map<string, D>, name: string, d: D, query: string)
    ensures GetDialect(RegisterDialect(registry, name, d), query) ==
      if query == name then Some(d) else GetDialect(registry, query)
  {
  }

  /** A name never registered is not found. */
  lemma LookupNeverRegistered<D>(names: seq<string>, ds: seq<D>, query: string)
    requires |names| == |ds|
    requires query !in names
    ensures GetDialect(RegisterAll(EmptyRegistry(), names, ds), query) == None
  {
    RegisteredNames(EmptyRegistry(), names, ds);
  }

  /** Registering a list of dialects one after another. */
  function RegisterAll<D>(registry: map<string, D>, names: seq<string>, ds: seq<D>): (r: map<string, D>)
    requires |names| == |ds|
    decreases |names|
  {
    if |names| == 0 then registry
    else RegisterAll(RegisterDialect(registry, names[0], ds[0]), names[1..], ds[1..])
  }

  lemma {:induction false} RegisteredNames<D>(registry: map<string, D>, names: seq<string>, ds: seq<D>)
    requires |names| == |ds|
    ensures RegisterAll(registry, names, ds).Keys == registry.Keys + set n | n in names
    decreases |names|
  {
    if |names| > 0 {
      RegisteredNames(RegisterDialect(registry, names[0], ds[0]), names[1..], ds[1..]);
      assert (set n | n in names) == {names[0]} + set n | n in names[1..];
    }
  }
}

=== FILE: orm.dfy ===
/**
 * The engine of `pkg/orm/orm.go`: sessions handed out over one connection,
 * the transaction wrapper with its commit/rollback decision table, the
 * order-preserving list difference, and the schema migration it drives.
 *
 * A Go panic inside the transaction's work is an outcome value here
 * (`Panicked`), so the wrapper's `recover`/re-`panic` becomes a case split.
 */
module Orm {
  import opened Values
  import Dialect
  import Schema
  import Session
  import Table

  // ----- difference -----

  /** `difference(a, b)`: the elements of `a` not in `b`, in `a`'s order, duplicates kept. */
  function Difference(a: seq<string>, b: seq<string>): (r: seq<string>)
    ensures |r| <= |a|
    decreases |a|
  {
    if |a| == 0 then []
    else
      var n := |a| - 1;
      var init := Difference(a[..n], b);
      assert a[..n] + [a[n]] == a;
      if a[n] in b then init else init + [a[n]]
  }

  /** An element is kept exactly when it is in `a` and not in `b`. */
  lemma {:induction false} DifferenceMembers(a: seq<string>, b: seq<string>)
    ensures forall x :: x in Difference(a, b) <==> x in a && x !in b
    decreases |a|
  {
    if |a| > 0 {
      var n := |a| - 1;
      assert a == a[..n] + [a[n]];
      DifferenceMembers(a[..n], b);
      DifferenceSnoc(a[..n], a[n], b);
    }
  }

  /** Each element of `a` outside `b` is kept as often as it occurs in `a`; the others never. */
  lemma {:induction false} DifferenceCounts(a: seq<string>, b: seq<string>)
    ensures forall x :: multiset(Difference(a, b))[x] == if x in b then 0 else multiset(a)[x]
    decreases |a|
  {
    if |a| > 0 {
      var n := |a| - 1;
      assert a == a[..n] + [a[n]];
      DifferenceCounts(a[..n], b);
      DifferenceSnoc(a[..n], a[n], b);
    }
  }

  /** One more element of `a` is kept exactly when it is not in `b`. */
  lemma DifferenceSnoc(a: seq<string>, x: string, b: seq<string>)
    ensures Difference(a + [x], b) == if x in b then Difference(a, b) else Difference(a, b) + [x]
  {
    assert (a + [x])[..|a|] == a;
  }

  /**
   * Difference distributes over concatenation; with `DifferenceSnoc` this
   * says each element of `a` is kept or dropped on its own, in `a`'s order.
   */
  lemma {:induction false} DifferenceAppend(a: seq<string>, c: seq<string>, b: seq<string>)
    ensures Difference(a + c, b) == Difference(a, b) + Difference(c, b)
    decreases |c|
  {
    if |c| == 0 {
      assert a + c == a;
    } else {
      var n := |c| - 1;
      assert a + c == (a + c[..n]) + [c[n]];
      assert c == c[..n] + [c[n]];
      DifferenceAppend(a, c[..n], b);
      DifferenceSnoc(a + c[..n], c[n], b);
      DifferenceSnoc(c[..n], c[n], b);
    }
  }

  /** The Go loop: build a lookup set of `b`, then keep each element of `a` it misses. */
  method DifferenceByLookup(a: seq<string>, b: seq<string>) returns (diff: seq<string>)
    ensures diff == Difference(a, b)
  {
    var inB: set<string> := {};
    for i := 0 to |b|
      invariant forall x :: x in inB <==> x in b[..i]
    {
      assert b[..i + 1] == b[..i] + [b[i]];
      inB := inB + {b[i]};
    }
    assert b[..|b|] == b;
    diff := [];
    for i := 0 to |a|
      invariant diff == Difference(a[..i], b)
    {
      assert a[..i + 1] == a[..i] + [a[i]];
      DifferenceSnoc(a[..i], a[i], b);
      if a[i] !in inB {
        diff := diff + [a[i]];
      }
    }
    assert a[..|a|] == a;
  }

  // ----- engine and transactions -----

  datatype Engine = Engine(db: Session.Db, dialect: Dialect.Dialect, collab: Session.Collaborators)

  /** `e.NewSession()`: a fresh session over the engine's connection. */
  function NewSession(e: Engine): (s: Session.Session)
    ensures Session.Idle(s) && s.refTable == None && Session.Coherent(s)
    ensures s.db == e.db && s.dialect == e.dialect && s.collab == e.collab
  {
    Session.New(e.db, e.dialect, e.collab)
  }

  /** How the transaction's work ended: `return result, err`, or a panic with its value. */
  datatype Outcome = Returned(result: Value, err: Option<Error>) | Panicked(panic: Value)

  /** A `TxFunc`, together with the session state it leaves behind. */
  type Work = Session.Session -> Session.Step<Outcome>

  /** The connection after a transaction, and how `Transaction` ended. */
  datatype TxResult = TxResult(db: Session.Db, outcome: Outcome)

  predicate Succeeded(o: Outcome)
  {
    o.Returned? && o.err.None?
  }

  /**
   * `e.Transaction(f)`: `Begin`; on failure return its error without calling
   * the work. Otherwise run the work; a panic or an error is followed by
   * `Rollback` and passed on unchanged; success is followed by `Commit`, whose
   * error becomes the result and is itself followed by `Rollback`.
   */
  function Transaction(e: Engine, work: Work): (r: TxResult)
    ensures r.db.oracle == e.db.oracle
    ensures var begun := e.db.history + [Session.Begin];
      var beginErr := e.db.oracle.tx(begun);
      && (beginErr.Some? ==> r == TxResult(Session.Db(begun, e.db.oracle), Returned(Null, beginErr)))
      && (beginErr.None? ==>
            var w := work(NewSession(e.(db := Session.Db(begun, e.db.oracle))));
            var h := w.session.db.history;
            && |h| < |r.db.history| <= |h| + 2
            && r.db.history[..|h|] == h
            && (Succeeded(r.outcome) <==> r.db.history == h + [Session.Commit])
            && (!Succeeded(r.outcome) ==> r.db.history[|r.db.history| - 1] == Session.Rollback)
            && (!Succeeded(w.out) ==> r.outcome == w.out && r.db.history == h + [Session.Rollback])
            && (w.out.Returned? ==> r.outcome.Returned? && r.outcome.result == w.out.result)
            && (Succeeded(w.out) ==> r.outcome.err == e.db.oracle.tx(h + [Session.Commit]))
            && (Succeeded(w.out) && !Succeeded(r.outcome) ==>
                  r.db.history == h + [Session.Commit, Session.Rollback]))
  {
    var begun := e.db.history + [Session.Begin];
    var beginErr := e.db.oracle.tx(begun);
    if beginErr.Some? then TxResult(Session.Db(begun, e.db.oracle), Returned(Null, beginErr))
    else
      var w := work(NewSession(e.(db := Session.Db(begun, e.db.oracle))));
      var h := w.session.db.history;
      match w.out
      case Panicked(_) => TxResult(Session.Db(h + [Session.Rollback], e.db.oracle), w.out)
      case Returned(result, err) =>
        if err.Some? then TxResult(Session.Db(h + [Session.Rollback], e.db.oracle), w.out)
        else
          var committed := h + [Session.Commit];
          var commitErr := e.db.oracle.tx(committed);
          if commitErr.None? then TxResult(Session.Db(committed, e.db.oracle), w.out)
          else
            assert committed + [Session.Rollback] == h + [Session.Commit, Session.Rollback];
            TxResult(Session.Db(committed + [Session.Rollback], e.db.oracle), Returned(result, commitErr))
  }

  /** A committed transaction began, ran the work to success, and sent `Commit` after the work's statements. */
  lemma CommittedHistory(e: Engine, work: Work)
    requires Succeeded(Transaction(e, work).outcome)
    ensures var s := NewSession(e.(db := Session.Db(e.db.history + [Session.Begin], e.db.oracle)));
      && e.db.oracle.tx(e.db.history + [Session.Begin]).None?
      && Succeeded(work(s).out)
      && Transaction(e, work).db.history == work(s).session.db.history + [Session.Commit]
  {
  }

  /** When `Begin` fails the work is never called: any two works give the same result. */
  lemma BeginFailureIgnoresWork(e: Engine, w1: Work, w2: Work)
    requires e.db.oracle.tx(e.db.history + [Session.Begin]).Some?
    ensures Transaction(e, w1) == Transaction(e, w2)
  {
  }

  /** A panicking work is rolled back and the same panic value comes out. */
  lemma PanicRollsBackAndRethrows(e: Engine, work: Work, p: Value)
    requires e.db.oracle.tx(e.db.history + [Session.Begin]).None?
    requires work(NewSession(e.(db := Session.Db(e.db.history + [Session.Begin], e.db.oracle)))).out == Panicked(p)
    ensures Transaction(e, work).outcome == Panicked(p)
    ensures Transaction(e, work).db.history[|Transaction(e, work).db.history| - 1] == Session.Rollback
  {
  }

  // ----- migration -----

  /** The value a nil-pointer dereference panics with. */
  const NilDereference: Value := Str("runtime error: invalid memory address or nil pointer dereference")

  /** A schema change the migration issues. */
  datatype Change = AddColumn(field: Schema.Field) | Rebuild(names: seq<string>)

  /** `SELECT * FROM <t> LIMIT 1`: reads the live column list. */
  function ColumnsProbeSql(table: string): (r: string)
  {
    "SELECT * FROM " + table + " LIMIT 1"
  }

  function AddColumnSql(table: string, f: Schema.Field): (r: string)
  {
    "ALTER TABLE " + table + " ADD COLUMN " + f.name + " " + f.typ + ";"
  }

  function CopySql(table: string, names: seq<string>): (r: string)
  {
    "CREATE TABLE tmp_" + table + " AS SELECT " + Join(names, ", ") + " from " + table + ";"
  }

  function DropSql(table: string): (r: string)
  {
    "DROP TABLE " + table + ";"
  }

  function RenameSql(table: string): (r: string)
  {
    "ALTER TABLE tmp_" + table + " RENAME TO " + table
  }

  /** The statement each change is sent as (buffered texts are each followed by one space). */
  function Ddl(table: string, c: Change): (r: Session.Request)
  {
    match c
    case AddColumn(f) => Session.Statement(Session.ExecOp, AddColumnSql(table, f) + " ", [])
    case Rebuild(names) =>
      Session.Statement(Session.ExecOp,
        CopySql(table, names) + " " + DropSql(table) + " " + RenameSql(table) + " ", [])
  }

  function Ddls(table: string, cs: seq<Change>): (r: seq<Session.Request>)
    ensures |r| == |cs|
    ensures forall i :: 0 <= i < |cs| ==> r[i] == Ddl(table, cs[i])
  {
    seq(|cs|, i requires 0 <= i < |cs| => Ddl(table, cs[i]))
  }

  /** A statement buffered from an idle session and executed is sent as the text and one space. */
  lemma ExecFromIdle(s: Session.Session, text: string)
    requires Session.Idle(s)
    ensures Session.Exec(Session.Raw(s, text, [])).session.db.history ==
      s.db.history + [Session.Statement(Session.ExecOp, text + " ", [])]
  {
    assert "" + text + " " == text + " ";
    assert s.vars + [] == [];
  }

  /** How the column loop ended. */
  datatype Added = AllAdded | AddFailed(error: Error) | NoSuchField(name: string)

  /**
   * The trace of the column loop from history `h0` to `h`: the statements
   * sent are the additions for a prefix of `cols`, in order; every one but
   * the last succeeded, and the last succeeded unless the loop failed on it
   * (also when it then stopped at an unknown name); a loop that ran out of
   * names sent one statement per name.
   */
  predicate AddTrace(oracle: Session.Oracle, t: Schema.Schema, cols: seq<string>,
                     h0: seq<Session.Request>, h: seq<Session.Request>, out: Added)
  {
    var sent := Sent(h0, h);
    && h == h0 + sent
    && |sent| <= |cols|
    && (forall i :: 0 <= i < |sent| ==>
          Schema.GetField(t, cols[i]).Some? &&
          sent[i] == Ddl(t.name, AddColumn(Schema.GetField(t, cols[i]).value)))
    && (forall i :: 0 < i < |sent| ==> oracle.exec(h0 + sent[..i]).Ok?)
    && (out.AllAdded? ==> |sent| == |cols|)
    && (!out.AddFailed? && |sent| > 0 ==> oracle.exec(h).Ok?)
    && (out.AddFailed? ==> |sent| > 0 && oracle.exec(h) == Err(out.error))
    && (out.NoSuchField? ==>
          |sent| < |cols| && out.name == cols[|sent|] && Schema.GetField(t, cols[|sent|]).None?)
  }

  /**
   * The `for _, col := range addCols` loop: one `ALTER TABLE ... ADD COLUMN`
   * per name, in order, stopping at the first failure; a name `GetField`
   * does not know is a nil dereference. `AddColumnsTrace` states the
   * statements it sends.
   */
  function AddColumns(s: Session.Session, t: Schema.Schema, cols: seq<string>): (r: Session.Step<Added>)
    requires Session.Idle(s)
    ensures Session.Idle(r.session) && r.session.refTable == s.refTable
    ensures r.session.db.oracle == s.db.oracle
    ensures r.session.dialect == s.dialect && r.session.collab == s.collab
    ensures |r.session.db.history| <= |s.db.history| + |cols|
    decreases |cols|
  {
    if |cols| == 0 then Session.Step(s, AllAdded)
    else
      var f := Schema.GetField(t, cols[0]);
      if f.None? then Session.Step(s, NoSuchField(cols[0]))
      else
        var x := Session.Exec(Session.Raw(s, AddColumnSql(t.name, f.value), []));
        if x.out.Err? then Session.Step(x.session, AddFailed(x.out.error))
        else AddColumns(x.session, t, cols[1..])
  }

  /** The loop's history and result follow `AddTrace`. */
  lemma {:induction false} AddColumnsTrace(s: Session.Session, t: Schema.Schema, cols: seq<string>)
    requires Session.Idle(s)
    ensures var r := AddColumns(s, t, cols);
      AddTrace(s.db.oracle, t, cols, s.db.history, r.session.db.history, r.out)
    decreases |cols|
  {
    if |cols| == 0 {
      AddTraceStop(s.db.oracle, t, cols, s.db.history, AllAdded);
    } else {
      var f := Schema.GetField(t, cols[0]);
      if f.None? {
        AddTraceStop(s.db.oracle, t, cols, s.db.history, NoSuchField(cols[0]));
      } else {
        var d := Ddl(t.name, AddColumn(f.value));
        var x := Session.Exec(Session.Raw(s, AddColumnSql(t.name, f.value), []));
        ExecFromIdle(s, AddColumnSql(t.name, f.value));
        if x.out.Err? {
          AddTraceFail(s.db.oracle, t, cols, s.db.history, d, x.out.error);
        } else {
          var rest := AddColumns(x.session, t, cols[1..]);
          AddColumnsTrace(x.session, t, cols[1..]);
          AddTraceCons(s.db.oracle, t, cols, s.db.history, d, rest.session.db.history, rest.out);
        }
      }
    }
  }

  /** The loop sends nothing when it has no names or the first name is unknown. */
  lemma AddTraceStop(oracle: Session.Oracle, t: Schema.Schema, cols: seq<string>,
                     h0: seq<Session.Request>, out: Added)
    requires out.AllAdded? ==> |cols| == 0
    requires out.AddFailed? ==> false
    requires out.NoSuchField? ==> |cols| > 0 && out.name == cols[0] && Schema.GetField(t, cols[0]).None?
    ensures AddTrace(oracle, t, cols, h0, h0, out)
  {
    assert Sent(h0, h0) == [];
  }

  /** The first addition fails: one statement sent, and its error ends the loop. */
  lemma AddTraceFail(oracle: Session.Oracle, t: Schema.Schema, cols: seq<string>,
                     h0: seq<Session.Request>, d: Session.Request, e: Error)
    requires |cols| > 0 && Schema.GetField(t, cols[0]).Some?
    requires d == Ddl(t.name, AddColumn(Schema.GetField(t, cols[0]).value))
    requires oracle.exec(h0 + [d]) == Err(e)
    ensures AddTrace(oracle, t, cols, h0, h0 + [d], AddFailed(e))
  {
    assert Sent(h0, h0 + [d]) == [d];
  }

  /** The first addition succeeds and the loop goes on with the remaining names. */
  lemma AddTraceCons(oracle: Session.Oracle, t: Schema.Schema, cols: seq<string>,
                     h0: seq<Session.Request>, d: Session.Request, h: seq<Session.Request>, out: Added)
    requires |cols| > 0 && Schema.GetField(t, cols[0]).Some?
    requires d == Ddl(t.name, AddColumn(Schema.GetField(t, cols[0]).value))
    requires oracle.exec(h0 + [d]).Ok?
    requires AddTrace(oracle, t, cols[1..], h0 + [d], h, out)
    ensures AddTrace(oracle, t, cols, h0, h, out)
  {
    var rest := Sent(h0 + [d], h);
    SentShift(h0, d, rest);
    var sent := [d] + rest;
    assert Sent(h0, h) == sent;
    forall i | 0 <= i < |sent|
      ensures Schema.GetField(t, cols[i]).Some? &&
              sent[i] == Ddl(t.name, AddColumn(Schema.GetField(t, cols[i]).value))
    {
      if i > 0 {
        assert sent[i] == rest[i - 1] && cols[i] == cols[1..][i - 1];
      }
    }
    forall i | 0 < i < |sent|
      ensures oracle.exec(h0 + sent[..i]).Ok?
    {
      assert h0 + sent[..i] == h0 + [d] + rest[..i - 1];
    }
    if out.NoSuchField? {
      assert cols[1..][|rest|] == cols[|sent|];
    }
    if !out.AddFailed? && |rest| == 0 {
      assert h == h0 + [d];
    }
  }

  /** What was appended to `h0` to reach `h` (when `h` extends `h0`). */
  function Sent(h0: seq<Session.Request>, h: seq<Session.Request>): (r: seq<Session.Request>)
  {
    if |h0| <= |h| then h[|h0|..] else []
  }

  /** One statement sent in front of the rest of the loop. */
  lemma SentShift(h0: seq<Session.Request>, d: Session.Request, rest: seq<Session.Request>)
    ensures Sent(h0, h0 + [d] + rest) == [d] + rest
    ensures forall j :: 0 <= j <= |rest| ==> h0 + [d] + rest[..j] == h0 + ([d] + rest)[..j + 1]
  {
    assert (h0 + [d] + rest)[|h0|..] == [d] + rest;
    forall j | 0 <= j <= |rest|
      ensures h0 + [d] + rest[..j] == h0 + ([d] + rest)[..j + 1]
    {
      assert ([d] + rest)[..j + 1] == [d] + rest[..j];
    }
  }

  /** `GetField` knows every declared column, so a coherent session never hits the nil dereference. */
  lemma AddColumnsFindsDeclared(s: Session.Session, t: Schema.Schema, cols: seq<string>)
    requires Session.Idle(s)
    requires forall i :: 0 <= i < |cols| ==> cols[i] in t.fieldNames
    ensures Schema.Valid(t) ==> !AddColumns(s, t, cols).out.NoSuchField?
  {
    var r := AddColumns(s, t, cols);
    AddColumnsTrace(s, t, cols);
    if Schema.Valid(t) && r.out.NoSuchField? {
      Schema.GetFieldOfValid(t, r.out.name);
    }
  }

  /** The column additions for the given names, in order. */
  function Adds(t: Schema.Schema, names: seq<string>): (r: seq<Change>)
    ensures |r| <= |names|
    ensures (forall i :: 0 <= i < |names| ==> Schema.GetField(t, names[i]).Some?) ==>
      |r| == |names| &&
      forall i :: 0 <= i < |names| ==> r[i] == AddColumn(Schema.GetField(t, names[i]).value)
    decreases |names|
  {
    if |names| == 0 then []
    else
      var rest := Adds(t, names[1..]);
      var f := Schema.GetField(t, names[0]);
      if f.Some? then
        assert forall i :: 1 <= i < |names| ==> names[1..][i - 1] == names[i];
        [AddColumn(f.value)] + rest
      else rest
  }

  /**
   * The migration plan for a table whose live columns are `columns`: add
   * each declared column the table lacks, in declared order, then rebuild
   * with the declared columns only if the table has an undeclared one.
   */
  function Plan(t: Schema.Schema, columns: seq<string>): (r: seq<Change>)
  {
    Adds(t, Difference(t.fieldNames, columns)) +
      (if Difference(columns, t.fieldNames) == [] then [] else [Rebuild(t.fieldNames)])
  }

  /** What a change does to the live column list. */
  function Apply(columns: seq<string>, c: Change): (r: seq<string>)
  {
    match c
    case AddColumn(f) => columns + [f.name]
    case Rebuild(names) => names
  }

  function ApplyAll(columns: seq<string>, cs: seq<Change>): (r: seq<string>)
    decreases |cs|
  {
    if |cs| == 0 then columns else ApplyAll(Apply(columns, cs[0]), cs[1..])
  }

  lemma {:induction false} ApplyAllAppend(columns: seq<string>, xs: seq<Change>, ys: seq<Change>)
    ensures ApplyAll(columns, xs + ys) == ApplyAll(ApplyAll(columns, xs), ys)
    decreases |xs|
  {
    if |xs| == 0 {
      assert xs + ys == ys;
    } else {
      assert (xs + ys)[1..] == xs[1..] + ys;
      ApplyAllAppend(Apply(columns, xs[0]), xs[1..], ys);
    }
  }

  /** Adding fields whose names are `names` appends exactly those names. */
  lemma {:induction false} ApplyAdds(columns: seq<string>, t: Schema.Schema, names: seq<string>)
    requires Schema.Valid(t)
    requires forall i :: 0 <= i < |names| ==> names[i] in t.fieldNames
    ensures ApplyAll(columns, Adds(t, names)) == columns + names
    decreases |names|
  {
    if |names| > 0 {
      Schema.GetFieldOfValid(t, names[0]);
      var f := Schema.GetField(t, names[0]).value;
      assert Adds(t, names) == [AddColumn(f)] + Adds(t, names[1..]);
      assert ([AddColumn(f)] + Adds(t, names[1..]))[1..] == Adds(t, names[1..]);
      ApplyAdds(columns + [names[0]], t, names[1..]);
      assert columns + [names[0]] + names[1..] == columns + names;
    }
  }

  /**
   * Carrying out the plan brings the live columns to the declared ones: with
   * an undeclared column the table ends with exactly the declared list;
   * otherwise the old columns stay in place and the missing ones follow, so
   * the table has exactly the declared columns.
   */
  lemma PlanReachesDeclared(t: Schema.Schema, columns: seq<string>)
    requires Schema.Valid(t)
    ensures Difference(columns, t.fieldNames) != [] ==> ApplyAll(columns, Plan(t, columns)) == t.fieldNames
    ensures Difference(columns, t.fieldNames) == [] ==>
      && ApplyAll(columns, Plan(t, columns)) == columns + Difference(t.fieldNames, columns)
      && forall x :: x in ApplyAll(columns, Plan(t, columns)) <==> x in t.fieldNames
  {
    var add := Difference(t.fieldNames, columns);
    var tail: seq<Change> := if Difference(columns, t.fieldNames) == [] then [] else [Rebuild(t.fieldNames)];
    DifferenceMembers(t.fieldNames, columns);
    DifferenceMembers(columns, t.fieldNames);
    ApplyAllAppend(columns, Adds(t, add), tail);
    ApplyAdds(columns, t, add);
    if Difference(columns, t.fieldNames) != [] {
      assert tail[1..] == [];
    }
  }

  /**
   * The `User` table of the package's migration scenario: live columns
   * `Name, XXX`, declared `Name text PRIMARY KEY, Age integer`. The plan adds
   * `Age` and then rebuilds, leaving exactly `Name, Age`.
   */
  lemma UserMigrationPlan(t: Schema.Schema)
    requires t.name == "User"
    requires t.fields == [Schema.Field("Name", "text", "PRIMARY KEY"), Schema.Field("Age", "integer", "")]
    requires Schema.Valid(t)
    ensures Plan(t, ["Name", "XXX"]) == [AddColumn(Schema.Field("Age", "integer", "")), Rebuild(["Name", "Age"])]
    ensures ApplyAll(["Name", "XXX"], Plan(t, ["Name", "XXX"])) == ["Name", "Age"]
  {
    var live := ["Name", "XXX"];
    var age := Schema.Field("Age", "integer", "");
    UserAgeField(t);
    UserDifferences(t.fieldNames);
    assert Plan(t, live) == Adds(t, ["Age"]) + [Rebuild(t.fieldNames)];
    assert Adds(t, ["Age"]) == [AddColumn(age)] by {
      assert ["Age"][1..] == [];
    }
    assert [AddColumn(age)] + [Rebuild(t.fieldNames)] == [AddColumn(age), Rebuild(["Name", "Age"])];
    PlanReachesDeclared(t, live);
  }

  lemma UserDifferences(names: seq<string>)
    requires names == ["Name", "Age"]
    ensures Difference(names, ["Name", "XXX"]) == ["Age"]
    ensures Difference(["Name", "XXX"], names) == ["XXX"]
  {
    var live := ["Name", "XXX"];
    assert Difference(["Name"], live) == [];
    DifferenceSnoc(["Name"], "Age", live);
    assert ["Name"] + ["Age"] == names;
    assert Difference(["Name"], names) == [];
    DifferenceSnoc(["Name"], "XXX", names);
    assert ["Name"] + ["XXX"] == live;
  }

  lemma UserAgeField(t: Schema.Schema)
    requires t.fields == [Schema.Field("Name", "text", "PRIMARY KEY"), Schema.Field("Age", "integer", "")]
    requires Schema.Valid(t)
    ensures t.fieldNames == ["Name", "Age"]
    ensures Schema.GetField(t, "Age") == Some(Schema.Field("Age", "integer", ""))
  {
    assert t.fieldNames == ["Name", "Age"];
    Schema.IndexLastWins(t.fields, 1);
  }

  /** Nothing is planned exactly when the live columns and the declared ones are the same set. */
  lemma PlanEmptyIffInSync(t: Schema.Schema, columns: seq<string>)
    requires Schema.Valid(t)
    ensures Plan(t, columns) == [] <==> forall x :: x in columns <==> x in t.fieldNames
  {
    var add := Difference(t.fieldNames, columns);
    var del := Difference(columns, t.fieldNames);
    DifferenceMembers(t.fieldNames, columns);
    DifferenceMembers(columns, t.fieldNames);
    forall i | 0 <= i < |add|
      ensures Schema.GetField(t, add[i]).Some?
    {
      Schema.GetFieldOfValid(t, add[i]);
    }
    assert |Adds(t, add)| == |add|;
    assert Plan(t, columns) == [] <==> add == [] && del == [] by {
      var tail: seq<Change> := if del == [] then [] else [Rebuild(t.fieldNames)];
      assert Plan(t, columns) == Adds(t, add) + tail;
      assert |Plan(t, columns)| == |add| + |tail|;
    }
    assert add == [] <==> forall x :: x in t.fieldNames ==> x in columns by {
      if add != [] {
        assert add[0] in add;
      }
    }
    assert del == [] <==> forall x :: x in columns ==> x in t.fieldNames by {
      if del != [] {
        assert del[0] in del;
      }
    }
  }

  /** The column read `MigrateWork` sends for an existing table. */
  function ColumnsRequest(t: Schema.Schema): (r: Session.Request)
  {
    Session.Statement(Session.QueryOp, ColumnsProbeSql(t.name) + " ", [])
  }

  /** The history once `MigrateWork` has sent the existence probe. */
  function ProbeHistory(s: Session.Session, obj: Schema.Object): (r: seq<Session.Request>)
  {
    s.db.history + [Table.ProbeRequest(Table.Model(s, obj))]
  }

  /** The probe's answer says the bound table exists. */
  predicate ProbeFinds(s: Session.Session, obj: Schema.Object)
  {
    Table.ScanText(s.db.oracle.queryRow(ProbeHistory(s, obj))) == Table.Model(s, obj).refTable.value.name
  }

  /** The history once the live columns have been asked for. */
  function ColumnsHistory(s: Session.Session, obj: Schema.Object): (r: seq<Session.Request>)
  {
    ProbeHistory(s, obj) + [ColumnsRequest(Table.Model(s, obj).refTable.value)]
  }

  /** Three buffered texts executed together from an idle session. */
  lemma ExecThreeFromIdle(s: Session.Session, a: string, b: string, c: string)
    requires Session.Idle(s)
    ensures Session.Exec(Session.Raw(Session.Raw(Session.Raw(s, a, []), b, []), c, [])).session.db.history ==
      s.db.history + [Session.Statement(Session.ExecOp, a + " " + b + " " + c + " ", [])]
  {
    assert "" + a + " " + b + " " + c + " " == a + " " + b + " " + c + " ";
    assert s.vars + [] + [] + [] == [];
  }

  /** The additions the loop sent are the plan's additions. */
  lemma AddsSent(t: Schema.Schema, cols: seq<string>, sent: seq<Session.Request>)
    requires |sent| == |cols|
    requires forall i :: 0 <= i < |sent| ==>
      Schema.GetField(t, cols[i]).Some? && sent[i] == Ddl(t.name, AddColumn(Schema.GetField(t, cols[i]).value))
    ensures sent == Ddls(t.name, Adds(t, cols))
  {
  }

  /**
   * Statements that succeeded up to `h1`, followed by at most one more
   * stage-ending statement, succeeded (or all but the last did) up to `h`.
   */
  lemma ExecsStages(oracle: Session.Oracle, h0: seq<Session.Request>, h1: seq<Session.Request>, h: seq<Session.Request>)
    requires ExecsOk(oracle, h0, h1)
    requires |h1| <= |h| <= |h1| + 1 && h[..|h1|] == h1
    ensures ExecsOk(oracle, h1, h) ==> ExecsOk(oracle, h0, h)
    ensures ExecsOkButLast(oracle, h1, h) ==> ExecsOkButLast(oracle, h0, h)
  {
    if ExecsOk(oracle, h1, h) {
      ExecsOkJoin(oracle, h0, h1, h);
    }
  }

  /** `h` extends `h0` by a non-empty prefix of the statements `plan`. */
  predicate SentPrefix(h0: seq<Session.Request>, h: seq<Session.Request>, plan: seq<Session.Request>)
  {
    |h0| < |h| <= |h0| + |plan| && h == h0 + plan[..|h| - |h0|]
  }

  /**
   * Every statement sent after `h0`, up to and including the last one of
   * `h`, was executed without error.
   */
  predicate ExecsOk(oracle: Session.Oracle, h0: seq<Session.Request>, h: seq<Session.Request>)
  {
    |h0| <= |h| && forall k :: |h0| < k <= |h| ==> oracle.exec(h[..k]).Ok?
  }

  /** Every statement sent after `h0` but the last one of `h` (there is one) was executed without error. */
  predicate ExecsOkButLast(oracle: Session.Oracle, h0: seq<Session.Request>, h: seq<Session.Request>)
  {
    |h0| < |h| && ExecsOk(oracle, h0, h[..|h| - 1])
  }

  /**
   * `h` extends `h0` by the additions for the names of `cols` before the
   * first one `GetField` does not know, which exists.
   */
  predicate StopsAtUnknown(t: Schema.Schema, cols: seq<string>, h0: seq<Session.Request>, h: seq<Session.Request>)
  {
    var j := |h| - |h0|;
    && 0 <= j < |cols|
    && Schema.GetField(t, cols[j]).None?
    && (forall i :: 0 <= i < j ==> Schema.GetField(t, cols[i]).Some?)
    && h == h0 + Ddls(t.name, Adds(t, cols[..j]))
  }

  /** Two runs of successful statements, one after the other, are one run. */
  lemma ExecsOkJoin(oracle: Session.Oracle, h0: seq<Session.Request>, h1: seq<Session.Request>, h: seq<Session.Request>)
    requires ExecsOk(oracle, h0, h1) && ExecsOk(oracle, h1, h)
    requires h[..|h1|] == h1
    ensures ExecsOk(oracle, h0, h)
  {
    forall k | |h0| < k <= |h1|
      ensures oracle.exec(h[..k]).Ok?
    {
      assert h[..k] == h1[..k];
    }
  }

  /** The loop's trace read as executions: all succeeded, except the last one when the loop failed on it. */
  lemma {:induction false} TraceExecsOk(oracle: Session.Oracle, t: Schema.Schema, cols: seq<string>,
                                        h0: seq<Session.Request>, h: seq<Session.Request>, out: Added)
    requires AddTrace(oracle, t, cols, h0, h, out)
    ensures !out.AddFailed? ==> ExecsOk(oracle, h0, h)
    ensures out.AddFailed? ==> ExecsOkButLast(oracle, h0, h)
  {
    var sent := Sent(h0, h);
    forall k | |h0| < k < |h|
      ensures oracle.exec(h[..k]).Ok?
    {
      assert h[..k] == h0 + sent[..k - |h0|];
    }
    if out.AddFailed? {
      var before := h[..|h| - 1];
      forall k | |h0| < k <= |before|
        ensures oracle.exec(before[..k]).Ok?
      {
        assert before[..k] == h[..k];
      }
    } else if |h0| < |h| {
      assert h[..|h|] == h;
    }
  }

  /** A prefix of a plan is a prefix of any longer plan. */
  lemma SentPrefixExtend(h0: seq<Session.Request>, h: seq<Session.Request>, a: seq<Session.Request>, b: seq<Session.Request>)
    requires SentPrefix(h0, h, a)
    ensures SentPrefix(h0, h, a + b)
  {
    assert (a + b)[..|h| - |h0|] == a[..|h| - |h0|];
  }

  /** Additions the loop sent for the first names are the first of the plan's additions. */
  lemma {:induction false} AddsSentPrefix(t: Schema.Schema, cols: seq<string>, sent: seq<Session.Request>)
    requires |sent| <= |cols|
    requires forall i :: 0 <= i < |sent| ==>
      Schema.GetField(t, cols[i]).Some? && sent[i] == Ddl(t.name, AddColumn(Schema.GetField(t, cols[i]).value))
    ensures |sent| <= |Adds(t, cols)|
    ensures sent == Ddls(t.name, Adds(t, cols))[..|sent|]
    decreases |cols|
  {
    if |sent| == 0 {
      assert sent == Ddls(t.name, Adds(t, cols))[..0];
    } else {
      var a := AddColumn(Schema.GetField(t, cols[0]).value);
      var rest := Adds(t, cols[1..]);
      assert Adds(t, cols) == [a] + rest;
      forall i | 0 <= i < |sent[1..]|
        ensures Schema.GetField(t, cols[1..][i]).Some? &&
                sent[1..][i] == Ddl(t.name, AddColumn(Schema.GetField(t, cols[1..][i]).value))
      {
        assert sent[1..][i] == sent[i + 1] && cols[1..][i] == cols[i + 1];
      }
      AddsSentPrefix(t, cols[1..], sent[1..]);
      DdlsAppend(t.name, [a], rest);
      assert Ddls(t.name, [a]) == [Ddl(t.name, a)];
      var plan := Ddls(t.name, Adds(t, cols));
      assert plan == [Ddl(t.name, a)] + Ddls(t.name, rest);
      assert plan[..|sent|] == [Ddl(t.name, a)] + Ddls(t.name, rest)[..|sent| - 1];
      assert sent == [sent[0]] + sent[1..];
    }
  }

  /**
   * The part of `Migrate`'s work after the live columns are known: add the
   * missing columns, then rebuild when the table has undeclared ones. A
   * nil return sent exactly the plan; an error is the reply to the last
   * statement, and what was sent is a non-empty prefix of the plan; a valid
   * schema never hits the nil field.
   */
  function Reconcile(s: Session.Session, t: Schema.Schema, columns: seq<string>): (r: Session.Step<Outcome>)
    requires Session.Idle(s)
    ensures r.session.db.oracle == s.db.oracle
    ensures r.out.Returned? ==> r.out.result == Null
    ensures Schema.Valid(t) ==> !r.out.Panicked?
    ensures Succeeded(r.out) ==> r.session.db.history == s.db.history + Ddls(t.name, Plan(t, columns))
    ensures r.out.Returned? && r.out.err.Some? ==>
      s.db.oracle.exec(r.session.db.history) == Err(r.out.err.value)
    ensures r.out.Returned? && r.out.err.Some? ==>
      SentPrefix(s.db.history, r.session.db.history, Ddls(t.name, Plan(t, columns)))
    ensures Succeeded(r.out) ==> ExecsOk(s.db.oracle, s.db.history, r.session.db.history)
    ensures r.out.Returned? && r.out.err.Some? ==> ExecsOkButLast(s.db.oracle, s.db.history, r.session.db.history)
  {
    var add := Difference(t.fieldNames, columns);
    var added := AddMissing(s, t, add);
    assert Schema.Valid(t) ==> !added.out.Panicked? by {
      DifferenceMembers(t.fieldNames, columns);
      assert forall i :: 0 <= i < |add| ==> add[i] in add;
    }
    if !Succeeded(added.out) then
      AddsPrefixOfPlan(s.db.history, added.session.db.history, t, columns);
      added
    else
      var r := RebuildIfStale(added.session, t, columns);
      PlanStagesSent(s.db.history, added.session.db.history, r.session.db.history, t, columns);
      ExecsStages(s.db.oracle, s.db.history, added.session.db.history, r.session.db.history);
      r
  }

  /**
   * The column loop as a step of the work. A failed addition stops it with
   * that addition's error; a nil return sent exactly the additions, all of
   * which succeeded. It panics only on reaching, after successful additions,
   * the first name `GetField` does not know; `AddMissingPanicsAtUnknown`
   * states that reaching such a name does panic.
   */
  function AddMissing(s: Session.Session, t: Schema.Schema, add: seq<string>): (r: Session.Step<Outcome>)
    requires Session.Idle(s)
    ensures r.session.db.oracle == s.db.oracle
    ensures r.out.Returned? ==> r.out.result == Null
    ensures Schema.Valid(t) && (forall i :: 0 <= i < |add| ==> add[i] in t.fieldNames) ==> !r.out.Panicked?
    ensures Succeeded(r.out) ==> Session.Idle(r.session)
    ensures Succeeded(r.out) ==> r.session.db.history == s.db.history + Ddls(t.name, Adds(t, add))
    ensures r.out.Returned? && r.out.err.Some? ==>
      s.db.oracle.exec(r.session.db.history) == Err(r.out.err.value)
    ensures r.out.Returned? && r.out.err.Some? ==>
      SentPrefix(s.db.history, r.session.db.history, Ddls(t.name, Adds(t, add)))
    ensures Succeeded(r.out) ==> ExecsOk(s.db.oracle, s.db.history, r.session.db.history)
    ensures r.out.Returned? && r.out.err.Some? ==> ExecsOkButLast(s.db.oracle, s.db.history, r.session.db.history)
    ensures r.out.Panicked? ==>
      StopsAtUnknown(t, add, s.db.history, r.session.db.history) && ExecsOk(s.db.oracle, s.db.history, r.session.db.history)
  {
    var added := AddColumns(s, t, add);
    AddColumnsExecs(s, t, add);
    AddColumnsStopsAtUnknown(s, t, add);
    if added.out.NoSuchField? then
      assert Schema.Valid(t) && (forall i :: 0 <= i < |add| ==> add[i] in t.fieldNames) ==> false by {
        if Schema.Valid(t) && (forall i :: 0 <= i < |add| ==> add[i] in t.fieldNames) {
          AddColumnsFindsDeclared(s, t, add);
        }
      }
      Session.Step(added.session, Panicked(NilDereference))
    else
      AddColumnsOutcome(s, t, add);
      if added.out.AddFailed? then Session.Step(added.session, Returned(Null, Some(added.out.error)))
      else Session.Step(added.session, Returned(Null, None))
  }

  /**
   * The converse of `AddMissing`'s panic clause: when every addition for
   * the names before the first unknown one succeeds, the loop reaches that
   * name and the work panics, having sent exactly those additions.
   */
  lemma AddMissingPanicsAtUnknown(s: Session.Session, t: Schema.Schema, add: seq<string>, j: int)
    requires Session.Idle(s)
    requires 0 <= j < |add| && Schema.GetField(t, add[j]).None?
    requires forall i :: 0 <= i < j ==> Schema.GetField(t, add[i]).Some?
    requires ExecsOk(s.db.oracle, s.db.history, s.db.history + Ddls(t.name, Adds(t, add[..j])))
    ensures AddMissing(s, t, add).out.Panicked?
    ensures AddMissing(s, t, add).session.db.history == s.db.history + Ddls(t.name, Adds(t, add[..j]))
  {
    var r := AddColumns(s, t, add);
    var h0 := s.db.history;
    var h := r.session.db.history;
    var sent := Sent(h0, h);
    AddColumnsTrace(s, t, add);
    var m := |sent|;
    assert m <= j;
    var prefix := add[..j];
    forall i | 0 <= i < m
      ensures Schema.GetField(t, prefix[i]).Some? &&
              sent[i] == Ddl(t.name, AddColumn(Schema.GetField(t, prefix[i]).value))
    {
      assert prefix[i] == add[i];
    }
    AddsSentPrefix(t, prefix, sent);
    var full := h0 + Ddls(t.name, Adds(t, prefix));
    assert m > 0 ==> s.db.oracle.exec(h).Ok? by {
      if m > 0 {
        assert full[..|h0| + m] == h;
      }
    }
    assert r.out.NoSuchField?;
    assert m == j;
    assert sent == Ddls(t.name, Adds(t, prefix)) by {
      AddsSent(t, prefix, sent);
    }
  }

  /**
   * The tail of the migration: rebuild only when the table still has columns
   * the struct does not declare.
   */
  function RebuildIfStale(s: Session.Session, t: Schema.Schema, columns: seq<string>): (r: Session.Step<Outcome>)
    requires Session.Idle(s)
    ensures r.session.db.oracle == s.db.oracle
    ensures r.out.Returned? && r.out.result == Null
    ensures Difference(columns, t.fieldNames) == [] <==> r.session.db.history == s.db.history
    ensures Difference(columns, t.fieldNames) == [] ==> r.out.err.None?
    ensures r.session.db.history == s.db.history + StaleDdls(t, columns)
    ensures r.out.err.Some? ==> s.db.oracle.exec(r.session.db.history) == Err(r.out.err.value)
    ensures Difference(columns, t.fieldNames) != [] ==>
      r.out.err == Table.ErrorOf(s.db.oracle.exec(r.session.db.history))
    ensures r.out.err.None? ==> ExecsOk(s.db.oracle, s.db.history, r.session.db.history)
    ensures r.out.err.Some? ==> ExecsOkButLast(s.db.oracle, s.db.history, r.session.db.history)
  {
    if Difference(columns, t.fieldNames) == [] then
      assert s.db.history + [] == s.db.history;
      Session.Step(s, Returned(Null, None))
    else
      var r := RebuildTable(s, t);
      assert r.session.db.history[..|r.session.db.history|] == r.session.db.history;
      assert r.session.db.history[..|r.session.db.history| - 1] == s.db.history;
      r
  }

  /** What the column loop's end means for the history it leaves. */
  lemma AddColumnsOutcome(s: Session.Session, t: Schema.Schema, cols: seq<string>)
    requires Session.Idle(s)
    ensures var r := AddColumns(s, t, cols);
      && (r.out.AllAdded? ==> r.session.db.history == s.db.history + Ddls(t.name, Adds(t, cols)))
      && (r.out.AddFailed? ==> s.db.oracle.exec(r.session.db.history) == Err(r.out.error))
      && (r.out.AddFailed? ==> SentPrefix(s.db.history, r.session.db.history, Ddls(t.name, Adds(t, cols))))
  {
    var r := AddColumns(s, t, cols);
    AddColumnsTrace(s, t, cols);
    if r.out.AllAdded? {
      AddsSent(t, cols, Sent(s.db.history, r.session.db.history));
    }
    if r.out.AddFailed? {
      AddsSentPrefix(t, cols, Sent(s.db.history, r.session.db.history));
    }
  }

  /** Every addition the loop sent succeeded, except the last one when the loop failed on it. */
  lemma AddColumnsExecs(s: Session.Session, t: Schema.Schema, cols: seq<string>)
    requires Session.Idle(s)
    ensures var r := AddColumns(s, t, cols);
      && (!r.out.AddFailed? ==> ExecsOk(s.db.oracle, s.db.history, r.session.db.history))
      && (r.out.AddFailed? ==> ExecsOkButLast(s.db.oracle, s.db.history, r.session.db.history))
  {
    var r := AddColumns(s, t, cols);
    AddColumnsTrace(s, t, cols);
    TraceExecsOk(s.db.oracle, t, cols, s.db.history, r.session.db.history, r.out);
  }

  /**
   * The loop stops at an unknown name only as the first unknown one, after
   * sending exactly the additions for the names before it.
   */
  lemma AddColumnsStopsAtUnknown(s: Session.Session, t: Schema.Schema, cols: seq<string>)
    requires Session.Idle(s)
    ensures var r := AddColumns(s, t, cols);
      r.out.NoSuchField? ==> StopsAtUnknown(t, cols, s.db.history, r.session.db.history)
  {
    var r := AddColumns(s, t, cols);
    AddColumnsTrace(s, t, cols);
    if r.out.NoSuchField? {
      var sent := Sent(s.db.history, r.session.db.history);
      var j := |sent|;
      assert forall i :: 0 <= i < j ==> cols[..j][i] == cols[i];
      AddsSent(t, cols[..j], sent);
    }
  }

  /** The rebuild statement, when the table has a column the struct does not declare. */
  function StaleDdls(t: Schema.Schema, columns: seq<string>): (r: seq<Session.Request>)
  {
    if Difference(columns, t.fieldNames) == [] then [] else [Ddl(t.name, Rebuild(t.fieldNames))]
  }

  lemma DdlsAppend(table: string, xs: seq<Change>, ys: seq<Change>)
    ensures Ddls(table, xs + ys) == Ddls(table, xs) + Ddls(table, ys)
  {
  }

  /** Statements that began the plan's additions began the plan. */
  lemma AddsPrefixOfPlan(h0: seq<Session.Request>, h: seq<Session.Request>, t: Schema.Schema, columns: seq<string>)
    ensures SentPrefix(h0, h, Ddls(t.name, Adds(t, Difference(t.fieldNames, columns)))) ==>
      SentPrefix(h0, h, Ddls(t.name, Plan(t, columns)))
  {
    PlanSplits(t, columns);
    if SentPrefix(h0, h, Ddls(t.name, Adds(t, Difference(t.fieldNames, columns)))) {
      SentPrefixExtend(h0, h, Ddls(t.name, Adds(t, Difference(t.fieldNames, columns))), StaleDdls(t, columns));
    }
  }

  /** The additions followed by the rebuild stage are the whole plan, a non-empty one when a rebuild was due. */
  lemma PlanStagesSent(h0: seq<Session.Request>, h1: seq<Session.Request>, h: seq<Session.Request>,
                       t: Schema.Schema, columns: seq<string>)
    requires h1 == h0 + Ddls(t.name, Adds(t, Difference(t.fieldNames, columns)))
    requires h == h1 + StaleDdls(t, columns)
    ensures h == h0 + Ddls(t.name, Plan(t, columns))
    ensures Difference(columns, t.fieldNames) != [] ==> SentPrefix(h0, h, Ddls(t.name, Plan(t, columns)))
  {
    var plan := Ddls(t.name, Plan(t, columns));
    PlanSplits(t, columns);
    assert h0 + Ddls(t.name, Adds(t, Difference(t.fieldNames, columns))) + StaleDdls(t, columns) ==
      h0 + (Ddls(t.name, Adds(t, Difference(t.fieldNames, columns))) + StaleDdls(t, columns));
    assert plan[..|plan|] == plan;
  }

  /** The plan's statements: the additions, then the rebuild when one is due. */
  lemma PlanSplits(t: Schema.Schema, columns: seq<string>)
    ensures Ddls(t.name, Plan(t, columns)) ==
      Ddls(t.name, Adds(t, Difference(t.fieldNames, columns))) + StaleDdls(t, columns)
  {
    var tail: seq<Change> := if Difference(columns, t.fieldNames) == [] then [] else [Rebuild(t.fieldNames)];
    DdlsAppend(t.name, Adds(t, Difference(t.fieldNames, columns)), tail);
  }

  /** The batched copy, drop and rename, sent as one statement. */
  function RebuildTable(s: Session.Session, t: Schema.Schema): (r: Session.Step<Outcome>)
    requires Session.Idle(s)
    ensures r.session.db.oracle == s.db.oracle
    ensures r.session.db.history == s.db.history + [Ddl(t.name, Rebuild(t.fieldNames))]
    ensures r.out == Returned(Null, Table.ErrorOf(s.db.oracle.exec(r.session.db.history)))
  {
    var copying := Session.Raw(s, CopySql(t.name, t.fieldNames), []);
    var dropping := Session.Raw(copying, DropSql(t.name), []);
    var x := Session.Exec(Session.Raw(dropping, RenameSql(t.name), []));
    ExecThreeFromIdle(s, CopySql(t.name, t.fieldNames), DropSql(t.name), RenameSql(t.name));
    Session.Step(x.session, Returned(Null, Table.ErrorOf(x.out)))
  }

  /**
   * The part of `Migrate`'s work for an existing table: read the live
   * columns, then reconcile. A failed read leaves `rows` nil and
   * `rows.Columns()` dereferences it.
   */
  function ReadAndReconcile(s: Session.Session): (r: Session.Step<Outcome>)
    requires s.refTable.Some? && Session.Idle(s)
    ensures r.session.db.oracle == s.db.oracle
    ensures r.out.Returned? ==> r.out.result == Null
    ensures var t := s.refTable.value;
      var h1 := s.db.history + [ColumnsRequest(t)];
      var reply := s.db.oracle.query(h1);
      && (reply.Err? ==> r == Session.Step(r.session, Panicked(NilDereference)) && r.session.db.history == h1)
      && (Schema.Valid(t) && r.out.Panicked? ==> reply.Err?)
      && (Succeeded(r.out) ==> reply.Ok? && r.session.db.history == h1 + Ddls(t.name, Plan(t, reply.value.columns)))
      && (r.out.Returned? && r.out.err.Some? ==> s.db.oracle.exec(r.session.db.history) == Err(r.out.err.value))
      && (r.out.Returned? && r.out.err.Some? ==>
            reply.Ok? && SentPrefix(h1, r.session.db.history, Ddls(t.name, Plan(t, reply.value.columns))))
      && (Succeeded(r.out) ==> ExecsOk(s.db.oracle, h1, r.session.db.history))
      && (r.out.Returned? && r.out.err.Some? ==> ExecsOkButLast(s.db.oracle, h1, r.session.db.history))
  {
    var t := s.refTable.value;
    var q := Session.QueryRows(Session.Raw(s, ColumnsProbeSql(t.name), []));
    assert "" + ColumnsProbeSql(t.name) + " " == ColumnsProbeSql(t.name) + " ";
    assert s.vars + [] == [];
    if q.out.Err? then Session.Step(q.session, Panicked(NilDereference))
    else Reconcile(q.session, t, q.out.value.columns)
  }

  /**
   * The `TxFunc` of `Migrate`: bind the type and probe for the table; an
   * absent table is created and nothing else is sent; an existing one has its
   * columns read and reconciled with the declared ones.
   */
  function MigrateWork(obj: Schema.Object, s: Session.Session): (r: Session.Step<Outcome>)
    ensures r.session.db.oracle == s.db.oracle
    ensures r.out.Returned? ==> r.out.result == Null
    ensures !ProbeFinds(s, obj) ==>
      var t := Table.Model(s, obj).refTable.value;
      var h := ProbeHistory(s, obj) + [Session.Statement(Session.ExecOp, Table.CreateTableSql(t) + " ", [])];
      r.session.db.history == h && r.out == Returned(Null, Table.ErrorOf(s.db.oracle.exec(h)))
    ensures Session.Coherent(s) && r.out.Panicked? ==>
      ProbeFinds(s, obj) && s.db.oracle.query(ColumnsHistory(s, obj)).Err?
    ensures ProbeFinds(s, obj) && Succeeded(r.out) ==>
      var t := Table.Model(s, obj).refTable.value;
      var reply := s.db.oracle.query(ColumnsHistory(s, obj));
      reply.Ok? && r.session.db.history == ColumnsHistory(s, obj) + Ddls(t.name, Plan(t, reply.value.columns))
    ensures r.out.Returned? && r.out.err.Some? ==>
      s.db.oracle.exec(r.session.db.history) == Err(r.out.err.value)
    ensures ProbeFinds(s, obj) && r.out.Returned? && r.out.err.Some? ==>
      var t := Table.Model(s, obj).refTable.value;
      var reply := s.db.oracle.query(ColumnsHistory(s, obj));
      reply.Ok? && SentPrefix(ColumnsHistory(s, obj), r.session.db.history, Ddls(t.name, Plan(t, reply.value.columns)))
    ensures ProbeFinds(s, obj) && Succeeded(r.out) ==>
      ExecsOk(s.db.oracle, ColumnsHistory(s, obj), r.session.db.history)
    ensures ProbeFinds(s, obj) && r.out.Returned? && r.out.err.Some? ==>
      ExecsOkButLast(s.db.oracle, ColumnsHistory(s, obj), r.session.db.history)
  {
    var h := Table.HasTable(Table.Model(s, obj));
    if !h.out then CreateAbsent(h.session)
    else ReadAndReconcile(h.session)
  }

  /** The branch of `MigrateWork` for an absent table: create it and stop. */
  function CreateAbsent(s: Session.Session): (r: Session.Step<Outcome>)
    requires s.refTable.Some? && Session.Idle(s)
    ensures var h := s.db.history + [Session.Statement(Session.ExecOp, Table.CreateTableSql(s.refTable.value) + " ", [])];
      r.session.db.history == h && r.out == Returned(Null, Table.ErrorOf(s.db.oracle.exec(h)))
    ensures r.session.db.oracle == s.db.oracle
  {
    assert "" + Table.CreateTableSql(s.refTable.value) + " " == Table.CreateTableSql(s.refTable.value) + " ";
    var c := Table.CreateTable(s);
    Session.Step(c.session, Returned(Null, c.out))
  }

  /** `e.Migrate(value)`: the migration inside a transaction; the work's result is dropped. */
  function Migrate(e: Engine, obj: Schema.Object): (r: TxResult)
    ensures r.db.oracle == e.db.oracle
    ensures r.outcome.Returned? ==> r.outcome.result == Null
  {
    Transaction(e, s => MigrateWork(obj, s))
  }

  /**
   * A migration that commits sent, after `Begin`: the existence probe, then
   * either the `CREATE TABLE` of an absent table, or the column read and
   * the plan for the live columns it returned; then `Commit`.
   */
  lemma MigrateCommits(e: Engine, obj: Schema.Object)
    requires Succeeded(Migrate(e, obj).outcome)
    ensures var s := NewSession(e.(db := Session.Db(e.db.history + [Session.Begin], e.db.oracle)));
      var t := Table.Model(s, obj).refTable.value;
      var reply := e.db.oracle.query(ColumnsHistory(s, obj));
      && (!ProbeFinds(s, obj) ==>
            Migrate(e, obj).db.history == ProbeHistory(s, obj) +
              [Session.Statement(Session.ExecOp, Table.CreateTableSql(t) + " ", []), Session.Commit])
      && (ProbeFinds(s, obj) ==>
            reply.Ok? &&
            Migrate(e, obj).db.history == ColumnsHistory(s, obj) + Ddls(t.name, Plan(t, reply.value.columns)) + [Session.Commit])
      && (ProbeFinds(s, obj) ==>
            ExecsOk(e.db.oracle, ColumnsHistory(s, obj), ColumnsHistory(s, obj) + Ddls(t.name, Plan(t, reply.value.columns))))
  {
    var s := NewSession(e.(db := Session.Db(e.db.history + [Session.Begin], e.db.oracle)));
    var work: Work := s' => MigrateWork(obj, s');
    CommittedHistory(e, work);
    assert work(s) == MigrateWork(obj, s);
    var t := Table.Model(s, obj).refTable.value;
    var create := Session.Statement(Session.ExecOp, Table.CreateTableSql(t) + " ", []);
    assert ProbeHistory(s, obj) + [create] + [Session.Commit] == ProbeHistory(s, obj) + [create, Session.Commit];
  }
}

=== FILE: record.dfy ===
/**
 * Record operations of `pkg/session/record.go`. Each is a fixed recipe of
 * clause `Set`s followed by one `Build` in a fixed kind order, whose result
 * is buffered with `Raw` and sent once.
 *
 * The statements are stated for coherent sessions (see `Session.Coherent`),
 * which every session built by `Session.New` and these operations is; the
 * fragments themselves come from the session's clause generators.
 */
module Record {
  import opened Values
  import opened Clause
  import Schema
  import Session
  import Table

  /** The error `First` returns when no row matched. */
  const NotFound: Error := Error("NOT FOUND")

  /** The error `Scan` reports when a row does not fit the destinations offered. */
  const ScanMismatch: Error := Error("sql: Scan destination mismatch")

  /** The `(table.Name, table.FieldNames)` arguments of INSERT and SELECT. */
  function TableArgs(t: Schema.Schema): (r: seq<Value>)
  {
    [Str(t.name), List(Strs(t.fieldNames))]
  }

  /** The same arguments, for the table a record type declares. */
  function DeclaredArgs(t: Schema.GoType, s: Session.Session): (r: seq<Value>)
  {
    [Str(t.elem.name), List(Strs(Schema.NamesOf(Schema.DeclaredFields(t, s.dialect))))]
  }

  /** `table.RecordValues(value)`, appended to VALUES as one element. */
  function RecordTuple(s: Session.Session, obj: Schema.Object): (r: Value)
  {
    List(s.collab.recordValues(Schema.DeclaredFields(obj.typ, s.dialect), obj))
  }

  /** The statement a session sends: its buffer followed by the built text and values. */
  function Sent(s: Session.Session, op: Session.Op, f: Fragment): (r: Session.Request)
  {
    Session.Statement(op, s.sql + f.sql + " ", s.vars + f.vars)
  }

  /** Binding a coherent session to a value yields the value type's table arguments. */
  lemma ModelArgs(s: Session.Session, obj: Schema.Object)
    requires Session.Coherent(s)
    ensures TableArgs(Table.Model(s, obj).refTable.value) == DeclaredArgs(obj.typ, s)
    ensures Table.Model(s, obj).refTable.value.fields == Schema.DeclaredFields(obj.typ, s.dialect)
  {
  }

  // ----- Insert -----

  datatype Prepared = Prepared(session: Session.Session, tuples: seq<Value>)

  /** The loop of `Insert`: bind each record, set INSERT for it, collect its values. */
  function PrepareInsert(s: Session.Session, objs: seq<Schema.Object>): (r: Prepared)
    ensures |r.tuples| == |objs|
    ensures r.session == s.(refTable := r.session.refTable, clause := r.session.clause)
    ensures forall k :: k != INSERT ==> (k in r.session.clause.entries <==> k in s.clause.entries)
    ensures forall k :: k != INSERT && k in s.clause.entries ==> r.session.clause.entries[k] == s.clause.entries[k]
    ensures |objs| == 0 ==> r.session == s
    ensures Session.Coherent(s) ==> Session.Coherent(r.session)
    ensures Session.Coherent(s) && |objs| > 0 ==>
      && INSERT in r.session.clause.entries
      && r.session.clause.entries[INSERT] == s.collab.generate(INSERT, DeclaredArgs(objs[|objs| - 1].typ, s))
      && r.session.refTable.Some? && r.session.refTable.value.model.typ == objs[|objs| - 1].typ
    decreases |objs|
  {
    if |objs| == 0 then Prepared(s, [])
    else
      var n := |objs| - 1;
      var p := PrepareInsert(s, objs[..n]);
      var bound := Table.Model(p.session, objs[n]);
      var t := bound.refTable.value;
      Prepared(Session.SetClause(bound, INSERT, TableArgs(t)),
               p.tuples + [List(bound.collab.recordValues(t.fields, objs[n]))])
  }

  /** Each record contributes the values of its own declared columns, in argument order. */
  lemma {:induction false} PreparedTuples(s: Session.Session, objs: seq<Schema.Object>)
    requires Session.Coherent(s)
    ensures PrepareInsert(s, objs).tuples == Tuples(s, objs)
    decreases |objs|
  {
    if |objs| > 0 {
      var n := |objs| - 1;
      var p := PrepareInsert(s, objs[..n]);
      assert p.tuples == Tuples(s, objs[..n]) by {
        PreparedTuples(s, objs[..n]);
      }
      var bound := Table.Model(p.session, objs[n]);
      var last := List(bound.collab.recordValues(bound.refTable.value.fields, objs[n]));
      assert last == RecordTuple(s, objs[n]) by {
        ModelArgs(p.session, objs[n]);
      }
      assert PrepareInsert(s, objs).tuples == p.tuples + [last];
      TuplesSnoc(s, objs);
    }
  }

  lemma TuplesSnoc(s: Session.Session, objs: seq<Schema.Object>)
    requires |objs| > 0
    ensures Tuples(s, objs) == Tuples(s, objs[..|objs| - 1]) + [RecordTuple(s, objs[|objs| - 1])]
  {
  }

  /** The VALUES arguments: one tuple per record, in argument order. */
  function Tuples(s: Session.Session, objs: seq<Schema.Object>): (r: seq<Value>)
    ensures |r| == |objs|
    ensures forall i :: 0 <= i < |objs| ==> r[i] == RecordTuple(s, objs[i])
  {
    seq(|objs|, i requires 0 <= i < |objs| => RecordTuple(s, objs[i]))
  }

  /**
   * `s.Insert(records...)`: one statement, `INSERT` for the last record's
   * table (each record's `Set` overwrote the previous one) followed by
   * `VALUES` with one tuple per record in argument order; the result is the
   * database's reply to it.
   */
  function Insert(s: Session.Session, objs: seq<Schema.Object>): (r: Session.Step<Result<int>>)
    ensures |r.session.db.history| == |s.db.history| + 1
    ensures r.session.db.history[..|s.db.history|] == s.db.history
    ensures r.out == s.db.oracle.exec(r.session.db.history)
    ensures Session.Idle(r.session) && r.session.db.oracle == s.db.oracle
    ensures Session.Coherent(s) ==> Session.Coherent(r.session)
    ensures Session.Coherent(s) && |objs| > 0 ==>
      var ins := s.collab.generate(INSERT, DeclaredArgs(objs[|objs| - 1].typ, s));
      var vals := s.collab.generate(VALUES, Tuples(s, objs));
      r.session.db.history == s.db.history +
        [Sent(s, Session.ExecOp, Fragment(ins.sql + " " + vals.sql, ins.vars + vals.vars))]
  {
    var p := PrepareInsert(s, objs);
    var withValues := Session.SetClause(p.session, VALUES, p.tuples);
    var stmt := Build(withValues.clause, [INSERT, VALUES]);
    InsertBuilds(s, objs, p, withValues.clause);
    Session.Exec(Session.Raw(withValues, stmt.sql, stmt.vars))
  }

  lemma InsertBuilds(s: Session.Session, objs: seq<Schema.Object>, p: Prepared, c: Clause)
    requires p == PrepareInsert(s, objs)
    requires c == Set(p.session.clause, s.collab.generate, VALUES, p.tuples)
    ensures Session.Coherent(s) && |objs| > 0 ==>
      var ins := s.collab.generate(INSERT, DeclaredArgs(objs[|objs| - 1].typ, s));
      var vals := s.collab.generate(VALUES, Tuples(s, objs));
      Build(c, [INSERT, VALUES]) == Fragment(ins.sql + " " + vals.sql, ins.vars + vals.vars)
  {
    if Session.Coherent(s) && |objs| > 0 {
      var ins := s.collab.generate(INSERT, DeclaredArgs(objs[|objs| - 1].typ, s));
      PreparedTuples(s, objs);
      assert c.entries[VALUES] == s.collab.generate(VALUES, Tuples(s, objs));
      assert INSERT in c.entries && c.entries[INSERT] == ins by {
        assert INSERT in p.session.clause.entries && p.session.clause.entries[INSERT] == ins;
      }
      assert [INSERT] + [VALUES] == [INSERT, VALUES];
      BuildAppend(c, [INSERT], [VALUES]);
      BuildSingle(c, INSERT);
      BuildSingle(c, VALUES);
    }
  }

  // ----- Find -----

  /** The destination slice after `Find`, and the error it returned. */
  datatype Found = Found(dest: seq<Schema.Object>, err: Option<Error>)

  /** `reflect.New(destType).Elem()`: a zero value of the element type. */
  function Zero(st: Schema.StructType): (r: Schema.Object)
  {
    Schema.Object(Schema.GoType(false, st), map[])
  }

  /** Member values assigned by name in column order. */
  function Bind(names: seq<string>, vals: seq<Value>): (r: map<string, Value>)
    requires |names| == |vals|
  {
    if |names| == 0 then map[]
    else Bind(names[..|names| - 1], vals[..|vals| - 1])[names[|names| - 1] := vals[|vals| - 1]]
  }

  /** `rows.Scan` of one row into a fresh element: one destination per column name. */
  function ScanRow(st: Schema.StructType, names: seq<string>, scan: Result<seq<Value>>): (r: Result<Schema.Object>)
  {
    if scan.Err? then Err(scan.error)
    else if |scan.value| != |names| then Err(ScanMismatch)
    else Ok(Schema.Object(Schema.GoType(false, st), Bind(names, scan.value)))
  }

  /**
   * `dest` extended by one element per successfully scanned row, in row
   * order, stopping at the first row that fails to scan.
   */
  predicate ScannedInOrder(st: Schema.StructType, names: seq<string>, scans: seq<Result<seq<Value>>>,
                           dest: seq<Schema.Object>, out: Found)
  {
    var k := |out.dest| - |dest|;
    && 0 <= k <= |scans|
    && out.dest[..|dest|] == dest
    && (forall i :: 0 <= i < k ==> ScanRow(st, names, scans[i]) == Ok(out.dest[|dest| + i]))
    && (k < |scans| ==> ScanRow(st, names, scans[k]).Err? && out.err == Some(ScanRow(st, names, scans[k]).error))
    && (k == |scans| ==> out.err == None)
  }

  /** The `for rows.Next()` loop of `Find`. */
  function ScanAll(st: Schema.StructType, names: seq<string>, scans: seq<Result<seq<Value>>>,
                   dest: seq<Schema.Object>): (r: Found)
    ensures ScannedInOrder(st, names, scans, dest, r)
    decreases |scans|
  {
    if |scans| == 0 then Found(dest, None)
    else
      var row := ScanRow(st, names, scans[0]);
      if row.Err? then Found(dest, Some(row.error))
      else
        var rest := ScanAll(st, names, scans[1..], dest + [row.value]);
        assert rest.dest[..|dest|] == (dest + [row.value])[..|dest|];
        assert forall i :: 1 <= i < |rest.dest| - |dest| ==> scans[1..][i - 1] == scans[i];
        rest
  }

  /**
   * What `Find` hands back for a result set: the scanned elements, and either
   * the first scan error (the rows are then not closed) or `Close`'s error.
   */
  predicate Collected(st: Schema.StructType, names: seq<string>, rows: Session.Rows,
                      dest: seq<Schema.Object>, out: Found)
  {
    var k := |out.dest| - |dest|;
    && 0 <= k <= |rows.scans|
    && out.dest[..|dest|] == dest
    && (forall i :: 0 <= i < k ==> ScanRow(st, names, rows.scans[i]) == Ok(out.dest[|dest| + i]))
    && (k < |rows.scans| ==>
          ScanRow(st, names, rows.scans[k]).Err? && out.err == Some(ScanRow(st, names, rows.scans[k]).error))
    && (k == |rows.scans| ==> out.err == rows.closeError)
  }

  /** Every row of `scans` scans into an element. */
  predicate AllScan(st: Schema.StructType, names: seq<string>, scans: seq<Result<seq<Value>>>)
  {
    forall i :: 0 <= i < |scans| ==> ScanRow(st, names, scans[i]).Ok?
  }

  /** Into an empty destination, the first row that fails to scan gives `Find`'s error. */
  lemma CollectedFirstError(st: Schema.StructType, names: seq<string>, rows: Session.Rows, out: Found, i: int)
    requires Collected(st, names, rows, [], out)
    requires 0 <= i < |rows.scans| && ScanRow(st, names, rows.scans[i]).Err?
    requires AllScan(st, names, rows.scans[..i])
    ensures out.err == Some(ScanRow(st, names, rows.scans[i]).error)
  {
    assert forall j :: 0 <= j < i ==> rows.scans[..i][j] == rows.scans[j];
  }

  /** Into an empty destination, rows that all scan give every element and `Close`'s error. */
  lemma CollectedAllScan(st: Schema.StructType, names: seq<string>, rows: Session.Rows, out: Found)
    requires Collected(st, names, rows, [], out)
    requires AllScan(st, names, rows.scans)
    ensures |out.dest| == |rows.scans| && out.err == rows.closeError
    ensures |rows.scans| > 0 ==> Ok(out.dest[0]) == ScanRow(st, names, rows.scans[0])
  {
  }

  /**
   * What `First` returns for a result set: the error of the first row that
   * fails to scan; when every row scans, `Close`'s error, else "NOT FOUND"
   * for no rows, else the first row.
   */
  predicate FirstReported(st: Schema.StructType, names: seq<string>, rows: Session.Rows, out: Result<Schema.Object>)
  {
    && (forall i ::
          (0 <= i < |rows.scans| && ScanRow(st, names, rows.scans[i]).Err? && AllScan(st, names, rows.scans[..i])) ==>
          out == Err(ScanRow(st, names, rows.scans[i]).error))
    && (AllScan(st, names, rows.scans) ==>
          if rows.closeError.Some? then out == Err(rows.closeError.value)
          else if rows.scans == [] then out == Err(NotFound)
          else out == ScanRow(st, names, rows.scans[0]))
  }

  /** How `First` reads what `Find` left: its error, else "NOT FOUND" for no element, else the first element. */
  function FirstOf(found: Found): (r: Result<Schema.Object>)
  {
    if found.err.Some? then Err(found.err.value)
    else if |found.dest| == 0 then Err(NotFound)
    else Ok(found.dest[0])
  }

  /** `First`'s reading of what `Find` collected into an empty destination. */
  lemma FirstFromCollected(st: Schema.StructType, names: seq<string>, rows: Session.Rows, found: Found)
    requires Collected(st, names, rows, [], found)
    ensures FirstReported(st, names, rows, FirstOf(found))
    ensures rows.scans == [] && rows.closeError == None ==> FirstOf(found) == Err(NotFound)
    ensures FirstOf(found).Ok? ==> |rows.scans| > 0 && ScanRow(st, names, rows.scans[0]) == FirstOf(found)
  {
    forall i | 0 <= i < |rows.scans| && ScanRow(st, names, rows.scans[i]).Err? && AllScan(st, names, rows.scans[..i])
      ensures found.err == Some(ScanRow(st, names, rows.scans[i]).error)
    {
      CollectedFirstError(st, names, rows, found, i);
    }
    if AllScan(st, names, rows.scans) {
      CollectedAllScan(st, names, rows, found);
    }
  }

  /** SELECT for the element type, then whatever WHERE, ORDER BY and LIMIT hold. */
  function SelectStatement(s: Session.Session, st: Schema.StructType): (r: Fragment)
  {
    Then(s.collab.generate(SELECT, DeclaredArgs(Schema.GoType(false, st), s)), s.clause, [WHERE, ORDERBY, LIMIT])
  }

  /**
   * `s.Find(&dest)` for a destination of element type `st`: one query,
   * SELECT followed by the WHERE, ORDERBY and LIMIT intents currently set,
   * then one appended element per returned row, in row order.
   */
  function Find(s: Session.Session, dest: seq<Schema.Object>, st: Schema.StructType): (r: Session.Step<Found>)
    ensures |r.session.db.history| == |s.db.history| + 1
    ensures r.session.db.history[..|s.db.history|] == s.db.history
    ensures Session.Coherent(s) ==>
      r.session.db.history == s.db.history + [Sent(s, Session.QueryOp, SelectStatement(s, st))]
    ensures r.session.refTable.Some? && r.session.refTable.value.model.typ == Schema.GoType(false, st)
    ensures var reply := s.db.oracle.query(r.session.db.history);
      && (reply.Err? ==> r.out == Found(dest, Some(reply.error)))
      && (reply.Ok? ==> Collected(st, r.session.refTable.value.fieldNames, reply.value, dest, r.out))
    ensures Session.Idle(r.session) && r.session.db.oracle == s.db.oracle
    ensures r.session.dialect == s.dialect && r.session.collab == s.collab
    ensures Session.Coherent(s) ==> Session.Coherent(r.session)
  {
    var q := SendSelect(s, st);
    var t := q.session.refTable.value;
    if q.out.Err? then Session.Step(q.session, Found(dest, Some(q.out.error)))
    else
      var scanned := ScanAll(st, t.fieldNames, q.out.value.scans, dest);
      if scanned.err.Some? then Session.Step(q.session, scanned)
      else Session.Step(q.session, Found(scanned.dest, q.out.value.closeError))
  }

  /** The query half of `Find`: bind the element type, set SELECT, build and send. */
  function SendSelect(s: Session.Session, st: Schema.StructType): (r: Session.Step<Result<Session.Rows>>)
    ensures |r.session.db.history| == |s.db.history| + 1
    ensures r.session.db.history[..|s.db.history|] == s.db.history
    ensures Session.Coherent(s) ==>
      r.session.db.history == s.db.history + [Sent(s, Session.QueryOp, SelectStatement(s, st))]
    ensures r.session.refTable.Some? && r.session.refTable.value.model.typ == Schema.GoType(false, st)
    ensures r.out == s.db.oracle.query(r.session.db.history)
    ensures Session.Idle(r.session) && r.session.db.oracle == s.db.oracle
    ensures r.session.dialect == s.dialect && r.session.collab == s.collab
    ensures Session.Coherent(s) ==> Session.Coherent(r.session)
  {
    var bound := Table.Model(s, Zero(st));
    var t := bound.refTable.value;
    var selecting := Session.SetClause(bound, SELECT, TableArgs(t));
    var stmt := Build(selecting.clause, [SELECT, WHERE, ORDERBY, LIMIT]);
    BuildLeading(bound.clause, s.collab.generate, SELECT, TableArgs(t), [WHERE, ORDERBY, LIMIT]);
    assert [SELECT] + [WHERE, ORDERBY, LIMIT] == [SELECT, WHERE, ORDERBY, LIMIT];
    Session.QueryRows(Session.Raw(selecting, stmt.sql, stmt.vars))
  }

  /**
   * `s.First(&dest)`: `Limit(1)` then `Find`. A query error, the first
   * row that fails to scan, or `Close`'s error is returned; otherwise no
   * row is the error "NOT FOUND", and a row makes the destination the
   * first element.
   */
  function First(s: Session.Session, st: Schema.StructType): (r: Session.Step<Result<Schema.Object>>)
    ensures |r.session.db.history| == |s.db.history| + 1
    ensures r.session.db.history[..|s.db.history|] == s.db.history
    ensures Session.Coherent(s) ==>
      r.session.db.history == s.db.history +
        [Sent(s, Session.QueryOp, SelectStatement(Limit(s, 1), st))]
    ensures r.session.refTable.Some? && r.session.refTable.value.model.typ == Schema.GoType(false, st)
    ensures var reply := s.db.oracle.query(r.session.db.history);
      && (reply.Err? ==> r.out == Err(reply.error))
      && (reply.Ok? && reply.value.scans == [] && reply.value.closeError == None ==> r.out == Err(NotFound))
      && (r.out.Ok? ==>
            reply.Ok? && |reply.value.scans| > 0 &&
            ScanRow(st, r.session.refTable.value.fieldNames, reply.value.scans[0]) == Ok(r.out.value))
    ensures var reply := s.db.oracle.query(r.session.db.history);
      reply.Ok? ==> FirstReported(st, r.session.refTable.value.fieldNames, reply.value, r.out)
    ensures Session.Idle(r.session) && r.session.db.oracle == s.db.oracle
    ensures Session.Coherent(s) ==> Session.Coherent(r.session)
  {
    var f := Find(Limit(s, 1), [], st);
    var reply := s.db.oracle.query(f.session.db.history);
    var names := f.session.refTable.value.fieldNames;
    assert reply.Ok? ==>
      && FirstReported(st, names, reply.value, FirstOf(f.out))
      && (reply.value.scans == [] && reply.value.closeError == None ==> FirstOf(f.out) == Err(NotFound))
      && (FirstOf(f.out).Ok? ==> |reply.value.scans| > 0 && ScanRow(st, names, reply.value.scans[0]) == FirstOf(f.out)) by {
      if reply.Ok? {
        FirstFromCollected(st, f.session.refTable.value.fieldNames, reply.value, f.out);
      }
    }
    Session.Step(f.session, FirstOf(f.out))
  }

  // ----- Update, Delete, Count -----

  /** What `Update` accepts without panicking: a map first, or string keys paired with values. */
  predicate UpdateArgsOk(kv: seq<Value>)
  {
    && |kv| > 0
    && (kv[0].Dict? || (|kv| % 2 == 0 && forall i :: 0 <= i < |kv| && i % 2 == 0 ==> kv[i].Str?))
  }

  /** `m[kv[i].(string)] = kv[i+1]` over the pairs in order. */
  function Pairs(kv: seq<Value>): (r: map<string, Value>)
    requires |kv| % 2 == 0
    requires forall i :: 0 <= i < |kv| && i % 2 == 0 ==> kv[i].Str?
    decreases |kv|
  {
    if |kv| == 0 then map[]
    else Pairs(kv[..|kv| - 2])[kv[|kv| - 2].s := kv[|kv| - 1]]
  }

  /** The column assignments `Update` passes to the UPDATE generator. */
  function Assignments(kv: seq<Value>): (r: map<string, Value>)
    requires UpdateArgsOk(kv)
  {
    if kv[0].Dict? then kv[0].entries else Pairs(kv)
  }

  /**
   * Every key of the pair list is assigned, nothing else is, and a key's value
   * is the one paired with its last occurrence.
   */
  lemma {:induction false} PairsLastWins(kv: seq<Value>, j: int)
    requires |kv| % 2 == 0
    requires forall i :: 0 <= i < |kv| && i % 2 == 0 ==> kv[i].Str?
    requires 0 <= j < |kv| && j % 2 == 0
    requires forall i :: j < i < |kv| && i % 2 == 0 ==> kv[i] != kv[j]
    ensures kv[j].s in Pairs(kv) && Pairs(kv)[kv[j].s] == kv[j + 1]
    decreases |kv|
  {
    if j < |kv| - 2 {
      var init := kv[..|kv| - 2];
      assert kv[|kv| - 2] != kv[j];
      PairsLastWins(init, j);
    }
  }

  lemma {:induction false} PairsKeys(kv: seq<Value>, key: string)
    requires |kv| % 2 == 0
    requires forall i :: 0 <= i < |kv| && i % 2 == 0 ==> kv[i].Str?
    ensures key in Pairs(kv) <==> exists i :: 0 <= i < |kv| && i % 2 == 0 && kv[i] == Str(key)
    decreases |kv|
  {
    if |kv| > 0 {
      var init := kv[..|kv| - 2];
      PairsKeys(init, key);
      if key in Pairs(init) {
        var i :| 0 <= i < |init| && i % 2 == 0 && init[i] == Str(key);
        assert kv[i] == Str(key);
      }
      if exists i :: 0 <= i < |kv| && i % 2 == 0 && kv[i] == Str(key) {
        var i :| 0 <= i < |kv| && i % 2 == 0 && kv[i] == Str(key);
        if i < |kv| - 2 {
          assert init[i] == Str(key);
        }
      }
    }
  }

  /** The kind-then-WHERE statement of Update, Delete and Count. */
  function WithWhere(s: Session.Session, kind: Kind, args: seq<Value>): (r: Fragment)
  {
    Then(s.collab.generate(kind, args), s.clause, [WHERE])
  }

  /** Sets `kind` and builds `kind` then WHERE; the result is `WithWhere`. */
  function KindThenWhere(s: Session.Session, kind: Kind, args: seq<Value>): (r: Session.Session)
    requires kind != WHERE
    ensures Session.Idle(Session.Exec(r).session)
    ensures r.sql == s.sql + WithWhere(s, kind, args).sql + " "
    ensures r.vars == s.vars + WithWhere(s, kind, args).vars
    ensures r.db == s.db && r.refTable == s.refTable && r.dialect == s.dialect && r.collab == s.collab
  {
    var withKind := Session.SetClause(s, kind, args);
    var stmt := Build(withKind.clause, [kind, WHERE]);
    BuildLeading(s.clause, s.collab.generate, kind, args, [WHERE]);
    assert [kind] + [WHERE] == [kind, WHERE];
    Session.Raw(withKind, stmt.sql, stmt.vars)
  }

  /** `s.Update(kv...)`: UPDATE of the cached table with the assignments, then WHERE. */
  function Update(s: Session.Session, kv: seq<Value>): (r: Session.Step<Result<int>>)
    requires s.refTable.Some?
    requires UpdateArgsOk(kv)
    ensures r.session.db.history == s.db.history +
      [Sent(s, Session.ExecOp, WithWhere(s, UPDATE, [Str(s.refTable.value.name), Dict(Assignments(kv))]))]
    ensures r.out == s.db.oracle.exec(r.session.db.history)
    ensures Session.Idle(r.session) && r.session.refTable == s.refTable
    ensures r.session.db.oracle == s.db.oracle && r.session.dialect == s.dialect && r.session.collab == s.collab
    ensures Session.Coherent(s) ==> Session.Coherent(r.session)
  {
    Session.Exec(KindThenWhere(s, UPDATE, [Str(s.refTable.value.name), Dict(Assignments(kv))]))
  }

  /** `s.Delete()`: DELETE from the cached table, then WHERE. */
  function Delete(s: Session.Session): (r: Session.Step<Result<int>>)
    requires s.refTable.Some?
    ensures r.session.db.history == s.db.history +
      [Sent(s, Session.ExecOp, WithWhere(s, DELETE, [Str(s.refTable.value.name)]))]
    ensures r.out == s.db.oracle.exec(r.session.db.history)
    ensures Session.Idle(r.session) && r.session.refTable == s.refTable
    ensures r.session.db.oracle == s.db.oracle && r.session.dialect == s.dialect && r.session.collab == s.collab
    ensures Session.Coherent(s) ==> Session.Coherent(r.session)
  {
    Session.Exec(KindThenWhere(s, DELETE, [Str(s.refTable.value.name)]))
  }

  /** `row.Scan(&tmp)` into an `int64`. */
  function ScanCount(row: Result<seq<Value>>): (r: Result<int>)
    ensures row.Err? ==> r == Err(row.error)
    ensures r.Ok? <==> row.Ok? && |row.value| == 1 && row.value[0].Int?
    ensures r.Ok? ==> row.value == [Int(r.value)]
  {
    if row.Err? then Err(row.error)
    else if |row.value| == 1 && row.value[0].Int? then
      assert row.value == [row.value[0]];
      Ok(row.value[0].i)
    else Err(ScanMismatch)
  }

  /** `s.Count()`: COUNT of the cached table, then WHERE; the single cell, or `(0, err)`. */
  function Count(s: Session.Session): (r: Session.Step<Result<int>>)
    requires s.refTable.Some?
    ensures r.session.db.history == s.db.history +
      [Sent(s, Session.QueryRowOp, WithWhere(s, COUNT, [Str(s.refTable.value.name)]))]
    ensures var row := s.db.oracle.queryRow(r.session.db.history);
      && (row.Err? ==> r.out == Err(row.error))
      && (r.out.Ok? ==> row == Ok([Int(r.out.value)]))
      && (row.Ok? && |row.value| == 1 && row.value[0].Int? ==> r.out == Ok(row.value[0].i))
    ensures Session.Idle(r.session) && r.session.refTable == s.refTable
    ensures r.session.db.oracle == s.db.oracle && r.session.dialect == s.dialect && r.session.collab == s.collab
    ensures Session.Coherent(s) ==> Session.Coherent(r.session)
  {
    var q := Session.QueryRow(KindThenWhere(s, COUNT, [Str(s.refTable.value.name)]));
    Session.Step(q.session, ScanCount(q.out))
  }

  // ----- chained intents -----

  /** `s.Limit(n)`: sets LIMIT to `n`; nothing else changes and nothing is sent. */
  function Limit(s: Session.Session, n: int): (r: Session.Session)
    ensures LIMIT in r.clause.entries && r.clause.entries[LIMIT] == s.collab.generate(LIMIT, [Int(n)])
    ensures forall k :: k != LIMIT ==> (k in r.clause.entries <==> k in s.clause.entries)
    ensures forall k :: k != LIMIT && k in s.clause.entries ==> r.clause.entries[k] == s.clause.entries[k]
    ensures r == s.(clause := r.clause)
  {
    Session.SetClause(s, LIMIT, [Int(n)])
  }

  /** `s.Where(desc, args...)`: sets WHERE with values `[desc] + args`; nothing is sent. */
  function Where(s: Session.Session, desc: string, args: seq<Value>): (r: Session.Session)
    ensures WHERE in r.clause.entries && r.clause.entries[WHERE] == s.collab.generate(WHERE, [Str(desc)] + args)
    ensures forall k :: k != WHERE ==> (k in r.clause.entries <==> k in s.clause.entries)
    ensures forall k :: k != WHERE && k in s.clause.entries ==> r.clause.entries[k] == s.clause.entries[k]
    ensures r == s.(clause := r.clause)
  {
    Session.SetClause(s, WHERE, [Str(desc)] + args)
  }

  /** `s.OrderBy(desc)`: sets ORDERBY; nothing is sent. */
  function OrderBy(s: Session.Session, desc: string): (r: Session.Session)
    ensures ORDERBY in r.clause.entries && r.clause.entries[ORDERBY] == s.collab.generate(ORDERBY, [Str(desc)])
    ensures forall k :: k != ORDERBY ==> (k in r.clause.entries <==> k in s.clause.entries)
    ensures forall k :: k != ORDERBY && k in s.clause.entries ==> r.clause.entries[k] == s.clause.entries[k]
    ensures r == s.(clause := r.clause)
  {
    Session.SetClause(s, ORDERBY, [Str(desc)])
  }

  /** A second `Where` replaces the first. */
  lemma WhereReplaces(s: Session.Session, d1: string, a1: seq<Value>, d2: string, a2: seq<Value>)
    ensures Where(Where(s, d1, a1), d2, a2) == Where(s, d2, a2)
  {
    SetOverwrites(s.clause, s.collab.generate, WHERE, [Str(d1)] + a1, [Str(d2)] + a2);
  }

  /**
   * `s.Where(c, args...).OrderBy(o).Limit(n).Find(&dest)` from an idle
   * coherent session sends SELECT, WHERE, ORDER BY and LIMIT fragments in that
   * order, one space apart, with their values in the same order.
   */
  lemma ChainedFind(s: Session.Session, c: string, args: seq<Value>, o: string, n: int,
                    st: Schema.StructType)
    requires Session.Idle(s) && Session.Coherent(s)
    ensures var gen := s.collab.generate;
      var sel := gen(SELECT, DeclaredArgs(Schema.GoType(false, st), s));
      var w := gen(WHERE, [Str(c)] + args);
      var ob := gen(ORDERBY, [Str(o)]);
      var lim := gen(LIMIT, [Int(n)]);
      Find(Limit(OrderBy(Where(s, c, args), o), n), [], st).session.db.history ==
        s.db.history + [Session.Statement(Session.QueryOp,
          sel.sql + " " + w.sql + " " + ob.sql + " " + lim.sql + " ",
          sel.vars + w.vars + ob.vars + lim.vars)]
  {
    var chained := Limit(OrderBy(Where(s, c, args), o), n);
    ChainedClause(s, c, args, o, n);
    FindFromIdle(chained, st);
    ChainedSelect(s, c, args, o, n, st);
  }

  /** The statement text and values the chained `Find` builds. */
  lemma ChainedSelect(s: Session.Session, c: string, args: seq<Value>, o: string, n: int,
                      st: Schema.StructType)
    ensures var gen := s.collab.generate;
      var sel := gen(SELECT, DeclaredArgs(Schema.GoType(false, st), s));
      var w := gen(WHERE, [Str(c)] + args);
      var ob := gen(ORDERBY, [Str(o)]);
      var lim := gen(LIMIT, [Int(n)]);
      var f := SelectStatement(Limit(OrderBy(Where(s, c, args), o), n), st);
      && "" + f.sql + " " == sel.sql + " " + w.sql + " " + ob.sql + " " + lim.sql + " "
      && f.vars == sel.vars + w.vars + ob.vars + lim.vars
  {
    var gen := s.collab.generate;
    var chained := Limit(OrderBy(Where(s, c, args), o), n);
    var sel := gen(SELECT, DeclaredArgs(Schema.GoType(false, st), s));
    var w := gen(WHERE, [Str(c)] + args);
    var ob := gen(ORDERBY, [Str(o)]);
    var lim := gen(LIMIT, [Int(n)]);
    ChainedClause(s, c, args, o, n);
    assert DeclaredArgs(Schema.GoType(false, st), chained) == DeclaredArgs(Schema.GoType(false, st), s);
    var f := SelectStatement(chained, st);
    assert f == Fragment(sel.sql + " " + (w.sql + " " + ob.sql + " " + lim.sql), sel.vars + (w.vars + ob.vars + lim.vars));
    assert sel.vars + (w.vars + ob.vars + lim.vars) == sel.vars + w.vars + ob.vars + lim.vars;
    Spaces(sel.sql, w.sql, ob.sql, lim.sql);
  }

  /** The chained intents leave WHERE, ORDERBY and LIMIT set and nothing else changed. */
  lemma ChainedClause(s: Session.Session, c: string, args: seq<Value>, o: string, n: int)
    ensures var gen := s.collab.generate;
      var chained := Limit(OrderBy(Where(s, c, args), o), n);
      && chained == s.(clause := chained.clause)
      && Present(chained.clause, [WHERE, ORDERBY, LIMIT]) != []
      && Build(chained.clause, [WHERE, ORDERBY, LIMIT]) == Fragment(
           gen(WHERE, [Str(c)] + args).sql + " " + gen(ORDERBY, [Str(o)]).sql + " " + gen(LIMIT, [Int(n)]).sql,
           gen(WHERE, [Str(c)] + args).vars + gen(ORDERBY, [Str(o)]).vars + gen(LIMIT, [Int(n)]).vars)
  {
    ThreeKinds(Limit(OrderBy(Where(s, c, args), o), n).clause);
  }

  /** From an empty buffer, `Find` sends exactly the built SELECT statement. */
  lemma FindFromIdle(s: Session.Session, st: Schema.StructType)
    requires s.sql == "" && s.vars == [] && Session.Coherent(s)
    ensures Find(s, [], st).session.db.history ==
      s.db.history + [Session.Statement(Session.QueryOp, "" + SelectStatement(s, st).sql + " ", SelectStatement(s, st).vars)]
  {
    assert [] + SelectStatement(s, st).vars == SelectStatement(s, st).vars;
  }

  lemma Spaces(a: string, b: string, c: string, d: string)
    ensures "" + (a + " " + (b + " " + c + " " + d)) + " " == a + " " + b + " " + c + " " + d + " "
  {
    var sp := " ";
    assert b + sp + c + sp + d == b + (sp + (c + (sp + d)));
    assert a + sp + b + sp + c + sp + d + sp == a + (sp + (b + (sp + (c + (sp + (d + sp))))));
  }

  lemma ThreeKinds(c: Clause)
    requires WHERE in c.entries && ORDERBY in c.entries && LIMIT in c.entries
    ensures Present(c, [WHERE, ORDERBY, LIMIT]) != []
    ensures Build(c, [WHERE, ORDERBY, LIMIT]) == Fragment(
      c.entries[WHERE].sql + " " + c.entries[ORDERBY].sql + " " + c.entries[LIMIT].sql,
      c.entries[WHERE].vars + c.entries[ORDERBY].vars + c.entries[LIMIT].vars)
  {
    assert [WHERE, ORDERBY, LIMIT] == [WHERE] + ([ORDERBY] + [LIMIT]);
    BuildAppend(c, [ORDERBY], [LIMIT]);
    BuildAppend(c, [WHERE], [ORDERBY] + [LIMIT]);
    BuildSingle(c, WHERE);
    BuildSingle(c, ORDERBY);
    BuildSingle(c, LIMIT);
    assert Present(c, [WHERE]) != [];
    assert Present(c, [ORDERBY]) != [];
    assert Present(c, [LIMIT]) != [];
    PresentAppend(c, [ORDERBY], [LIMIT]);
    PresentAppend(c, [WHERE], [ORDERBY] + [LIMIT]);
  }
}

=== FILE: schema.dfy ===
/**
 * Schema derivation (`pkg/schema`): from a record's struct type to a table
 * description. Go reflection is replaced by an explicit descriptor of the
 * struct's members in declaration order.
 */
module Schema {
  import opened Values
  import Dialect

  /** One struct member: its name, whether it is embedded, its Go type, and its `orm:"..."` tag if any. */
  datatype Member = Member(name: string, anonymous: bool, goType: string, ormTag: Option<string>)

  /** A named struct type with its members in declaration order. */
  datatype StructType = StructType(name: string, members: seq<Member>)

  /**
   * The dynamic type of a value passed as `interface{}`: the struct itself or
   * a pointer to it. Two values have the same `reflect.TypeOf` exactly when
   * their `GoType`s are equal. A nil pointer or a non-struct value, on
   * which reflection panics, is not representable.
   */
  datatype GoType = GoType(pointer: bool, elem: StructType)

  /** A record instance: its type and the values of its members by name (absent = zero value). */
  datatype Object = Object(typ: GoType, fields: map<string, Value>)

  /** A column: name, dialect column type, and constraint text. */
  datatype Field = Field(name: string, typ: string, tag: string)

  /** A table description derived from a record type. */
  datatype Schema = Schema(
    model: Object,
    name: string,
    fields: seq<Field>,
    fieldNames: seq<string>,
    fieldMap: map<string, Field>)

  /** `ast.IsExported`: the name starts with an upper-case letter (ASCII letters only here). */
  predicate IsExported(name: string)
  {
    |name| > 0 && 'A' <= name[0] <= 'Z'
  }

  /** The members `Parse` turns into columns. */
  predicate Kept(m: Member)
  {
    !m.anonymous && IsExported(m.name)
  }

  function ToField(m: Member, d: Dialect.Dialect): (r: Field)
  {
    Field(m.name, d.dataTypeOf(m.goType), if m.ormTag.Some? then m.ormTag.value else "")
  }

  /** The columns of a member list, in declaration order. */
  function FieldsOf(members: seq<Member>, d: Dialect.Dialect): (r: seq<Field>)
  {
    if |members| == 0 then []
    else if Kept(members[0]) then [ToField(members[0], d)] + FieldsOf(members[1..], d)
    else FieldsOf(members[1..], d)
  }

  function NamesOf(fields: seq<Field>): (r: seq<string>)
    ensures |r| == |fields|
    ensures forall i :: 0 <= i < |fields| ==> r[i] == fields[i].name
  {
    seq(|fields|, i requires 0 <= i < |fields| => fields[i].name)
  }

  /** `fieldMap` as filled in declaration order: a later field of the same name wins. */
  function IndexOf(fields: seq<Field>): (r: map<string, Field>)
  {
    if |fields| == 0 then map[]
    else IndexOf(fields[..|fields| - 1])[fields[|fields| - 1].name := fields[|fields| - 1]]
  }

  predicate Distinct(names: seq<string>)
  {
    forall i, j :: 0 <= i < j < |names| ==> names[i] != names[j]
  }

  /** No two members share a name, except that any number of them may be the blank `_`. */
  predicate MembersDistinct(members: seq<Member>)
  {
    forall i, j :: 0 <= i < j < |members| && members[i].name != "_" ==> members[i].name != members[j].name
  }

  /** What the Go compiler guarantees of a struct type: non-blank member names are unique. */
  predicate WellFormed(st: StructType)
  {
    MembersDistinct(st.members)
  }

  /** The field list and lookup map agree with each other. */
  predicate Valid(s: Schema)
  {
    && s.fieldNames == NamesOf(s.fields)
    && s.fieldMap == IndexOf(s.fields)
  }

  /** The columns a record type declares under a dialect. */
  function DeclaredFields(t: GoType, d: Dialect.Dialect): (r: seq<Field>)
  {
    FieldsOf(t.elem.members, d)
  }

  /** `Parse(object, d)`. */
  function Parse(obj: Object, d: Dialect.Dialect): (r: Schema)
    ensures r.model == obj
    ensures r.name == obj.typ.elem.name
    ensures |r.fieldNames| == |r.fields|
    ensures forall i :: 0 <= i < |r.fields| ==> r.fieldNames[i] == r.fields[i].name
    ensures Valid(r)
  {
    var fields := DeclaredFields(obj.typ, d);
    Schema(obj, obj.typ.elem.name, fields, NamesOf(fields), IndexOf(fields))
  }

  /** `schema.GetField(name)`: nil is `None`. */
  function GetField(s: Schema, name: string): (r: Option<Field>)
    ensures r.Some? <==> name in s.fieldMap
  {
    if name in s.fieldMap then Some(s.fieldMap[name]) else None
  }

  // ----- order and selection -----

  /** Columns of a concatenated member list are the columns of each part, in order. */
  lemma {:induction false} FieldsOfAppend(a: seq<Member>, b: seq<Member>, d: Dialect.Dialect)
    ensures FieldsOf(a + b, d) == FieldsOf(a, d) + FieldsOf(b, d)
  {
    if |a| == 0 {
      assert a + b == b;
    } else {
      assert (a + b)[1..] == a[1..] + b;
      FieldsOfAppend(a[1..], b, d);
    }
  }

  /** Every column comes from a kept member, and carries its name, dialect type and tag. */
  lemma {:induction false} FieldOrigin(members: seq<Member>, d: Dialect.Dialect)
    ensures forall f :: f in FieldsOf(members, d) ==>
      exists j :: 0 <= j < |members| && Kept(members[j]) && f == ToField(members[j], d)
  {
    if |members| > 0 {
      FieldOrigin(members[1..], d);
      forall f | f in FieldsOf(members, d)
        ensures exists j :: 0 <= j < |members| && Kept(members[j]) && f == ToField(members[j], d)
      {
        if Kept(members[0]) && f == ToField(members[0], d) {
        } else {
          assert f in FieldsOf(members[1..], d);
          var j :| 0 <= j < |members[1..]| && Kept(members[1..][j]) && f == ToField(members[1..][j], d);
          assert members[j + 1] == members[1..][j];
        }
      }
    }
  }

  /** Every kept member becomes a column. */
  lemma {:induction false} KeptBecomesField(members: seq<Member>, d: Dialect.Dialect)
    ensures forall j :: 0 <= j < |members| && Kept(members[j]) ==> ToField(members[j], d) in FieldsOf(members, d)
  {
    if |members| > 0 {
      KeptBecomesField(members[1..], d);
      forall j | 0 <= j < |members| && Kept(members[j])
        ensures ToField(members[j], d) in FieldsOf(members, d)
      {
        if j > 0 {
          assert members[j] == members[1..][j - 1];
        }
      }
    }
  }

  /** Column names of distinct-named members are distinct; a blank member is never a column. */
  lemma {:induction false} FieldNamesDistinct(members: seq<Member>, d: Dialect.Dialect)
    requires MembersDistinct(members)
    ensures Distinct(NamesOf(FieldsOf(members, d)))
  {
    if |members| > 0 {
      assert MembersDistinct(members[1..]) by {
        forall i, j | 0 <= i < j < |members[1..]|
          ensures members[1..][i].name != "_" ==> members[1..][i].name != members[1..][j].name
        {
          assert members[1..][i] == members[i + 1] && members[1..][j] == members[j + 1];
        }
      }
      FieldNamesDistinct(members[1..], d);
      if Kept(members[0]) {
        FieldOrigin(members[1..], d);
        var rest := FieldsOf(members[1..], d);
        forall i | 0 <= i < |rest|
          ensures rest[i].name != members[0].name
        {
          assert rest[i] in rest;
          var j :| 0 <= j < |members[1..]| && Kept(members[1..][j]) && rest[i] == ToField(members[1..][j], d);
          assert members[1..][j] == members[j + 1];
        }
        var all := FieldsOf(members, d);
        assert all == [ToField(members[0], d)] + rest;
        forall i, j | 0 <= i < j < |all|
          ensures NamesOf(all)[i] != NamesOf(all)[j]
        {
          if i > 0 {
            assert NamesOf(rest)[i - 1] != NamesOf(rest)[j - 1];
          }
        }
      }
    }
  }

  /**
   * Parse keeps exactly the members that are exported and not embedded: a
   * member's name is a column name if and only if the member is kept.
   */
  lemma ParseKeepsExactly(obj: Object, d: Dialect.Dialect)
    requires WellFormed(obj.typ.elem)
    ensures forall j :: 0 <= j < |obj.typ.elem.members| ==>
      (obj.typ.elem.members[j].name in Parse(obj, d).fieldNames <==> Kept(obj.typ.elem.members[j]))
  {
    var ms := obj.typ.elem.members;
    var s := Parse(obj, d);
    KeptBecomesField(ms, d);
    FieldOrigin(ms, d);
    forall j | 0 <= j < |ms|
      ensures ms[j].name in s.fieldNames <==> Kept(ms[j])
    {
      if Kept(ms[j]) {
        var f := ToField(ms[j], d);
        assert f in s.fields;
        var i :| 0 <= i < |s.fields| && s.fields[i] == f;
        assert s.fieldNames[i] == ms[j].name;
      }
      if ms[j].name in s.fieldNames {
        var i :| 0 <= i < |s.fieldNames| && s.fieldNames[i] == ms[j].name;
        assert s.fields[i] in s.fields;
        var k :| 0 <= k < |ms| && Kept(ms[k]) && s.fields[i] == ToField(ms[k], d);
        assert ms[k].name == ms[j].name;
      }
    }
  }

  // ----- the lookup map -----

  lemma {:induction false} IndexKeys(fields: seq<Field>)
    ensures forall n :: n in IndexOf(fields) <==> n in NamesOf(fields)
  {
    if |fields| > 0 {
      var init := fields[..|fields| - 1];
      IndexKeys(init);
      assert NamesOf(fields) == NamesOf(init) + [fields[|fields| - 1].name];
    }
  }

  /** A field not followed by another of the same name is what the map holds for its name. */
  lemma {:induction false} IndexLastWins(fields: seq<Field>, i: int)
    requires 0 <= i < |fields|
    requires forall j :: i < j < |fields| ==> fields[j].name != fields[i].name
    ensures fields[i].name in IndexOf(fields) && IndexOf(fields)[fields[i].name] == fields[i]
  {
    if i < |fields| - 1 {
      IndexLastWins(fields[..|fields| - 1], i);
    }
  }

  /**
   * `GetField(n)` returns the column named `n` for every column name of the
   * record type, and nil for every other name.
   */
  lemma GetFieldOfParse(obj: Object, d: Dialect.Dialect, n: string)
    requires WellFormed(obj.typ.elem)
    ensures forall i :: 0 <= i < |Parse(obj, d).fields| ==>
      GetField(Parse(obj, d), Parse(obj, d).fieldNames[i]) == Some(Parse(obj, d).fields[i])
    ensures n !in Parse(obj, d).fieldNames ==> GetField(Parse(obj, d), n) == None
  {
    var s := Parse(obj, d);
    FieldNamesDistinct(obj.typ.elem.members, d);
    IndexKeys(s.fields);
    forall i | 0 <= i < |s.fields|
      ensures GetField(s, s.fieldNames[i]) == Some(s.fields[i])
    {
      IndexLastWins(s.fields, i);
    }
  }

  /** In any valid schema every column name resolves to a field of that name. */
  lemma GetFieldOfValid(s: Schema, n: string)
    requires Valid(s)
    requires n in s.fieldNames
    ensures GetField(s, n).Some? && GetField(s, n).value.name == n
  {
    IndexKeys(s.fields);
    var i :| 0 <= i < |s.fieldNames| && s.fieldNames[i] == n;
    var last := LastWithName(s.fields, n, i);
    IndexLastWins(s.fields, last);
  }

  /** The position of the last field named `n`, at or after `i`. */
  ghost function LastWithName(fields: seq<Field>, n: string, i: int): (k: int)
    requires 0 <= i < |fields| && fields[i].name == n
    ensures i <= k < |fields| && fields[k].name == n
    ensures forall j :: k < j < |fields| ==> fields[j].name != n
    decreases |fields| - i
  {
    if exists j :: i < j < |fields| && fields[j].name == n then
      var j :| i < j < |fields| && fields[j].name == n;
      LastWithName(fields, n, j)
    else i
  }
}

=== FILE: session.dfy ===
/**
 * The session of `pkg/session/raw.go`: a statement buffer, its bound values,
 * a clause table and a cached schema, over a database connection.
 *
 * The connection is an oracle. It records every request it receives, in
 * order, and answers each request as a function of that whole history, so a
 * stateful database is any choice of the four answer functions. Statements
 * always go to the base connection (`s.db`), also while a transaction is
 * open; `Begin`, `Commit` and `Rollback` are requests in the same history.
 */
module Session {
  import opened Values
  import Clause
  import Dialect
  import Schema

  /** Which `database/sql` entry point a statement was sent through. */
  datatype Op = ExecOp | QueryRowOp | QueryOp

  datatype Request =
    | Statement(op: Op, sql: string, vars: seq<Value>)
    | Begin
    | Commit
    | Rollback

  /**
   * A result set: its column names, the outcome of scanning each row into the
   * destinations the caller offers, and the error `Close` reports.
   */
  datatype Rows = Rows(columns: seq<string>, scans: seq<Result<seq<Value>>>, closeError: Option<Error>)

  /** How the database answers a request, given every request so far (the current one last). */
  datatype Oracle = Oracle(
    exec: seq<Request> -> Result<int>,
    queryRow: seq<Request> -> Result<seq<Value>>,
    query: seq<Request> -> Result<Rows>,
    tx: seq<Request> -> Option<Error>)

  datatype Db = Db(history: seq<Request>, oracle: Oracle)

  /** Hands one request to the database. */
  function Send(db: Db, req: Request): (r: Db)
    ensures r.history == db.history + [req]
    ensures r.oracle == db.oracle
  {
    db.(history := db.history + [req])
  }

  /**
   * Code the session calls but that is not part of this model: the clause
   * generators, and `Schema.RecordValues`, which lays out a record's member
   * values along a column list.
   */
  datatype Collaborators = Collaborators(
    generate: Clause.Generator,
    recordValues: (seq<Schema.Field>, Schema.Object) -> seq<Value>)

  datatype Session = Session(
    db: Db,
    dialect: Dialect.Dialect,
    collab: Collaborators,
    refTable: Option<Schema.Schema>,
    clause: Clause.Clause,
    sql: string,
    vars: seq<Value>)

  /** A session after an operation, with what the operation returned. */
  datatype Step<+T> = Step(session: Session, out: T)

  /** Empty buffer, no values, empty clause table. */
  predicate Idle(s: Session)
  {
    s.sql == "" && s.vars == [] && s.clause == Clause.Empty
  }

  /** The cached schema, if any, is what `Parse` derives from its own model. */
  predicate Coherent(s: Session)
  {
    s.refTable.Some? ==> s.refTable.value == Schema.Parse(s.refTable.value.model, s.dialect)
  }

  /** `New(db, dialect)`. */
  function New(db: Db, dialect: Dialect.Dialect, collab: Collaborators): (s: Session)
    ensures Idle(s) && s.refTable == None && Coherent(s)
    ensures s.db == db && s.dialect == dialect && s.collab == collab
  {
    Session(db, dialect, collab, None, Clause.Empty, "", [])
  }

  /** `s.Clear()`: the buffer, the values and the clause table are reset; nothing else changes. */
  function Clear(s: Session): (r: Session)
    ensures Idle(r)
    ensures r.db == s.db && r.dialect == s.dialect && r.collab == s.collab && r.refTable == s.refTable
  {
    s.(sql := "", vars := [], clause := Clause.Empty)
  }

  /** `s.Raw(sql, values...)`: buffers the text and one space, appends the values, sends nothing. */
  function Raw(s: Session, sql: string, values: seq<Value>): (r: Session)
    ensures r.sql == s.sql + sql + " "
    ensures r.vars == s.vars + values
    ensures r.db == s.db && r.clause == s.clause && r.refTable == s.refTable
    ensures r.dialect == s.dialect && r.collab == s.collab
  {
    s.(sql := s.sql + sql + " ", vars := s.vars + values)
  }

  /** Sends the buffer through `op`, then clears the session (`defer s.Clear()`). */
  function Dispatch(s: Session, op: Op): (r: Session)
    ensures r.db.history == s.db.history + [Statement(op, s.sql, s.vars)]
    ensures r.db.oracle == s.db.oracle
    ensures Idle(r)
    ensures r.refTable == s.refTable && r.dialect == s.dialect && r.collab == s.collab
    ensures Coherent(s) ==> Coherent(r)
  {
    Clear(s.(db := Send(s.db, Statement(op, s.sql, s.vars))))
  }

  /** `s.Exec()`: affected-row count or the database's error; the session is cleared either way. */
  function Exec(s: Session): (r: Step<Result<int>>)
    ensures r.session.db.history == s.db.history + [Statement(ExecOp, s.sql, s.vars)]
    ensures r.out == s.db.oracle.exec(r.session.db.history)
    ensures Idle(r.session)
    ensures r.session.db.oracle == s.db.oracle && r.session.refTable == s.refTable
    ensures r.session.dialect == s.dialect && r.session.collab == s.collab
  {
    var s' := Dispatch(s, ExecOp);
    Step(s', s'.db.oracle.exec(s'.db.history))
  }

  /** `s.QueryRow()`: the single row (or the error its `Scan` would report); the session is cleared. */
  function QueryRow(s: Session): (r: Step<Result<seq<Value>>>)
    ensures r.session.db.history == s.db.history + [Statement(QueryRowOp, s.sql, s.vars)]
    ensures r.out == s.db.oracle.queryRow(r.session.db.history)
    ensures Idle(r.session)
    ensures r.session.db.oracle == s.db.oracle && r.session.refTable == s.refTable
    ensures r.session.dialect == s.dialect && r.session.collab == s.collab
  {
    var s' := Dispatch(s, QueryRowOp);
    Step(s', s'.db.oracle.queryRow(s'.db.history))
  }

  /** `s.QueryRows()`: the result set or the error; the session is cleared either way. */
  function QueryRows(s: Session): (r: Step<Result<Rows>>)
    ensures r.session.db.history == s.db.history + [Statement(QueryOp, s.sql, s.vars)]
    ensures r.out == s.db.oracle.query(r.session.db.history)
    ensures Idle(r.session)
    ensures r.session.db.oracle == s.db.oracle && r.session.refTable == s.refTable
    ensures r.session.dialect == s.dialect && r.session.collab == s.collab
  {
    var s' := Dispatch(s, QueryOp);
    Step(s', s'.db.oracle.query(s'.db.history))
  }

  /**
   * `s.clause.Set(kind, args...)` on the session's clause table: the kind
   * holds the generator's fragment for `args`, every other kind keeps its
   * entry, and nothing outside the clause table changes.
   */
  function SetClause(s: Session, kind: Clause.Kind, args: seq<Value>): (r: Session)
    ensures kind in r.clause.entries && r.clause.entries[kind] == s.collab.generate(kind, args)
    ensures forall k :: k != kind ==> (k in r.clause.entries <==> k in s.clause.entries)
    ensures forall k :: k != kind && k in s.clause.entries ==> r.clause.entries[k] == s.clause.entries[k]
    ensures r == s.(clause := r.clause)
  {
    s.(clause := Clause.Set(s.clause, s.collab.generate, kind, args))
  }

  /**
   * A statement cycle from an idle session: whatever was buffered with `Raw`
   * is sent verbatim, each text followed by one space, with the values in
   * call order; afterwards the session is idle again.
   */
  lemma RawCycle(s: Session, texts: seq<string>, values: seq<seq<Value>>)
    requires Idle(s)
    requires |texts| == |values|
    ensures Exec(Buffer(s, texts, values)).session.db.history ==
      s.db.history + [Statement(ExecOp, Spaced(texts), Flatten(values))]
    ensures Idle(Exec(Buffer(s, texts, values)).session)
  {
    BufferContents(s, texts, values);
  }

  /** Buffering texts from an idle session: the buffer is their spaced concatenation, nothing is sent. */
  lemma {:induction false} BufferContents(s: Session, texts: seq<string>, values: seq<seq<Value>>)
    requires Idle(s)
    requires |texts| == |values|
    ensures Buffer(s, texts, values).sql == Spaced(texts)
    ensures Buffer(s, texts, values).vars == Flatten(values)
    ensures Buffer(s, texts, values).db == s.db
    ensures Buffer(s, texts, values).refTable == s.refTable
  {
    BufferSql(s, texts, values);
    BufferVars(s, texts, values);
    BufferFrame(s, texts, values);
  }

  lemma {:induction false} BufferSql(s: Session, texts: seq<string>, values: seq<seq<Value>>)
    requires s.sql == ""
    requires |texts| == |values|
    ensures Buffer(s, texts, values).sql == Spaced(texts)
    decreases |texts|
  {
    if |texts| > 0 {
      var n := |texts| - 1;
      BufferSql(s, texts[..n], values[..n]);
      assert texts[..n] + [texts[n]] == texts;
      SpacedAppend(texts[..n], texts[n]);
    }
  }

  lemma {:induction false} BufferVars(s: Session, texts: seq<string>, values: seq<seq<Value>>)
    requires s.vars == []
    requires |texts| == |values|
    ensures Buffer(s, texts, values).vars == Flatten(values)
    decreases |texts|
  {
    if |texts| > 0 {
      var n := |texts| - 1;
      BufferVars(s, texts[..n], values[..n]);
      assert values[..n] + [values[n]] == values;
      FlattenAppend(values[..n], [values[n]]);
      assert [values[n]][1..] == [];
      assert Flatten([values[n]]) == values[n] + Flatten([values[n]][1..]);
    }
  }

  lemma {:induction false} BufferFrame(s: Session, texts: seq<string>, values: seq<seq<Value>>)
    requires |texts| == |values|
    ensures Buffer(s, texts, values).db == s.db
    ensures Buffer(s, texts, values).refTable == s.refTable
    decreases |texts|
  {
    if |texts| > 0 {
      var n := |texts| - 1;
      BufferFrame(s, texts[..n], values[..n]);
    }
  }

  /** `s.Raw(texts[0], values[0]...).Raw(texts[1], ...)...` */
  function Buffer(s: Session, texts: seq<string>, values: seq<seq<Value>>): (r: Session)
    requires |texts| == |values|
    decreases |texts|
  {
    if |texts| == 0 then s
    else
      var n := |texts| - 1;
      Raw(Buffer(s, texts[..n], values[..n]), texts[n], values[n])
  }

  /** Each text followed by one space. */
  function Spaced(texts: seq<string>): (r: string)
  {
    if |texts| == 0 then "" else texts[0] + " " + Spaced(texts[1..])
  }

  lemma {:induction false} SpacedAppend(texts: seq<string>, t: string)
    ensures Spaced(texts + [t]) == Spaced(texts) + t + " "
  {
    if |texts| > 0 {
      assert (texts + [t])[1..] == texts[1..] + [t];
      SpacedAppend(texts[1..], t);
    } else {
      assert texts + [t] == [t];
      assert [t][1..] == [];
    }
  }
}

=== FILE: table.dfy ===
/**
 * Table-level session operations of `pkg/session/table.go`: binding a record
 * type (`Model`) with its schema cache, and the DDL statements derived from
 * the cached schema.
 *
 * `GetRefTable` reads the cached schema; the operations that go on to use its
 * name or fields require that one is cached.
 */
module Table {
  import opened Values
  import Schema
  import Session

  /** `s.Model(value)`: re-parse only when nothing is cached or the value's type differs. */
  function Model(s: Session.Session, obj: Schema.Object): (r: Session.Session)
    ensures r.refTable.Some? && r.refTable.value.model.typ == obj.typ
    ensures (s.refTable.None? || s.refTable.value.model.typ != obj.typ) <==>
      (r.refTable == Some(Schema.Parse(obj, s.dialect)) && r.refTable != s.refTable)
    ensures s.refTable.Some? && s.refTable.value.model.typ == obj.typ ==> r == s
    ensures r == s.(refTable := r.refTable)
    ensures Session.Coherent(s) ==> Session.Coherent(r)
  {
    if s.refTable.None? || s.refTable.value.model.typ != obj.typ then
      s.(refTable := Some(Schema.Parse(obj, s.dialect)))
    else s
  }

  /** Whatever was cached before, a coherent session's schema describes the argument's type. */
  lemma ModelDescribesType(s: Session.Session, obj: Schema.Object)
    requires Session.Coherent(s)
    ensures Model(s, obj).refTable.value.name == obj.typ.elem.name
    ensures Model(s, obj).refTable.value.fields == Schema.DeclaredFields(obj.typ, s.dialect)
    ensures Schema.Valid(Model(s, obj).refTable.value)
  {
  }

  /** Binding a second value of the same type changes nothing. */
  lemma ModelIdempotent(s: Session.Session, a: Schema.Object, b: Schema.Object)
    requires a.typ == b.typ
    ensures Model(Model(s, a), b) == Model(s, a)
  {
  }

  /** `"<Name> <Type> <Tag>"` for every column, in field order. */
  function ColumnDefs(fields: seq<Schema.Field>): (r: seq<string>)
    ensures |r| == |fields|
    ensures forall i :: 0 <= i < |fields| ==> r[i] == fields[i].name + " " + fields[i].typ + " " + fields[i].tag
  {
    seq(|fields|, i requires 0 <= i < |fields| => fields[i].name + " " + fields[i].typ + " " + fields[i].tag)
  }

  function CreateTableSql(t: Schema.Schema): (r: string)
  {
    "CREATE TABLE " + t.name + " (" + Join(ColumnDefs(t.fields), ",") + ");"
  }

  function DropTableSql(t: Schema.Schema): (r: string)
  {
    "DROP TABLE IF EXISTS " + t.name
  }

  /** The error of an `Exec`, dropping the affected count. */
  function ErrorOf(res: Result<int>): (e: Option<Error>)
    ensures e.None? <==> res.Ok?
    ensures e.Some? ==> e.value == res.error
  {
    if res.Ok? then None else Some(res.error)
  }

  /**
   * `s.CreateTable()`: sends `CREATE TABLE <name> (<columns>);` after whatever
   * the buffer already held, and returns the database's error.
   */
  function CreateTable(s: Session.Session): (r: Session.Step<Option<Error>>)
    requires s.refTable.Some?
    ensures r.session.db.history == s.db.history +
      [Session.Statement(Session.ExecOp, s.sql + CreateTableSql(s.refTable.value) + " ", s.vars)]
    ensures r.out == ErrorOf(s.db.oracle.exec(r.session.db.history))
    ensures Session.Idle(r.session) && r.session.refTable == s.refTable
    ensures r.session.db.oracle == s.db.oracle
    ensures Session.Coherent(s) ==> Session.Coherent(r.session)
  {
    var e := Session.Exec(Session.Raw(s, CreateTableSql(s.refTable.value), []));
    assert s.vars + [] == s.vars;
    Session.Step(e.session, ErrorOf(e.out))
  }

  /**
   * The column list of the DDL splits back on `,` into one definition per
   * field, in field order, as long as no name, type or tag contains a comma.
   */
  lemma CreateTableColumns(t: Schema.Schema)
    requires |t.fields| > 0
    requires forall i :: 0 <= i < |t.fields| ==> ',' !in ColumnDefs(t.fields)[i]
    ensures CreateTableSql(t) == "CREATE TABLE " + t.name + " (" + ColumnList(t) + ");"
    ensures Split(ColumnList(t), ',') == ColumnDefs(t.fields)
  {
    SplitJoin(ColumnDefs(t.fields), ',');
  }

  function ColumnList(t: Schema.Schema): (r: string)
  {
    Join(ColumnDefs(t.fields), ",")
  }

  /** The statement for `type User struct { Name string `orm:"PRIMARY KEY"`; Age int }` under SQLite. */
  lemma CreateTableUser(t: Schema.Schema)
    requires t.name == "User"
    requires t.fields == [Schema.Field("Name", "text", "PRIMARY KEY"), Schema.Field("Age", "integer", "")]
    ensures CreateTableSql(t) == "CREATE TABLE User (Name text PRIMARY KEY,Age integer );"
  {
    UserColumnList(t.fields);
    UserPrefix();
    UserStatement();
  }

  lemma UserColumnList(fields: seq<Schema.Field>)
    requires fields == [Schema.Field("Name", "text", "PRIMARY KEY"), Schema.Field("Age", "integer", "")]
    ensures Join(ColumnDefs(fields), ",") == "Name text PRIMARY KEY,Age integer "
  {
    var defs := ColumnDefs(fields);
    UserDefs();
    JoinTwo(defs, ",");
    UserJoined();
  }

  // The literal steps of `CreateTableUser`, one string equality each.

  lemma UserDefs()
    ensures "Name" + " " + "text" + " " + "PRIMARY KEY" == "Name text PRIMARY KEY"
    ensures "Age" + " " + "integer" + " " + "" == "Age integer "
  {
  }

  lemma UserJoined()
    ensures "Name text PRIMARY KEY" + "," + "Age integer " == "Name text PRIMARY KEY,Age integer "
  {
  }

  lemma UserPrefix()
    ensures "CREATE TABLE " + "User" + " (" == "CREATE TABLE User ("
  {
  }

  lemma UserStatement()
    ensures "CREATE TABLE User (" + "Name text PRIMARY KEY,Age integer " + ");" ==
      "CREATE TABLE User (Name text PRIMARY KEY,Age integer );"
  {
  }

  /** `s.DropTable()`: sends `DROP TABLE IF EXISTS <name>` after the buffer. */
  function DropTable(s: Session.Session): (r: Session.Step<Option<Error>>)
    requires s.refTable.Some?
    ensures r.session.db.history == s.db.history +
      [Session.Statement(Session.ExecOp, s.sql + "DROP TABLE IF EXISTS " + s.refTable.value.name + " ", s.vars)]
    ensures r.out == ErrorOf(s.db.oracle.exec(r.session.db.history))
    ensures Session.Idle(r.session) && r.session.refTable == s.refTable
    ensures r.session.db.oracle == s.db.oracle
    ensures Session.Coherent(s) ==> Session.Coherent(r.session)
  {
    var e := Session.Exec(Session.Raw(s, DropTableSql(s.refTable.value), []));
    assert s.vars + [] == s.vars;
    assert s.sql + DropTableSql(s.refTable.value) + " " == s.sql + "DROP TABLE IF EXISTS " + s.refTable.value.name + " ";
    Session.Step(e.session, ErrorOf(e.out))
  }

  /**
   * `row.Scan(&tmp)` into a string: the single text cell, or `tmp` left at
   * `""` when the row is missing or not one text cell.
   */
  function ScanText(row: Result<seq<Value>>): (r: string)
  {
    if row.Ok? && |row.value| == 1 && row.value[0].Str? then row.value[0].s else ""
  }

  /** For a non-empty name, scanning yields the name exactly when the row is that one text cell. */
  lemma ScanTextExact(row: Result<seq<Value>>, name: string)
    ensures name != "" ==> (ScanText(row) == name <==> row == Ok([Str(name)]))
  {
    if name != "" && ScanText(row) == name {
      assert row.value == [row.value[0]];
    }
  }

  /** The existence probe `HasTable` sends for the cached table. */
  function ProbeRequest(s: Session.Session): (r: Session.Request)
    requires s.refTable.Some?
  {
    var probe := s.dialect.tableExistSql(s.refTable.value.name);
    Session.Statement(Session.QueryRowOp, s.sql + probe.0 + " ", s.vars + probe.1)
  }

  /**
   * `s.HasTable()`: true exactly when the scanned probe text equals the table
   * name; for a non-empty name, exactly when the probe row is that name.
   */
  function HasTable(s: Session.Session): (r: Session.Step<bool>)
    requires s.refTable.Some?
    ensures r.session.db.history == s.db.history + [ProbeRequest(s)]
    ensures var row := s.db.oracle.queryRow(r.session.db.history);
      && (r.out <==> ScanText(row) == s.refTable.value.name)
      && (s.refTable.value.name != "" ==> (r.out <==> row == Ok([Str(s.refTable.value.name)])))
    ensures Session.Idle(r.session) && r.session.refTable == s.refTable
    ensures r.session.db.oracle == s.db.oracle
    ensures r.session.dialect == s.dialect && r.session.collab == s.collab
    ensures Session.Coherent(s) ==> Session.Coherent(r.session)
  {
    var name := s.refTable.value.name;
    var probe := s.dialect.tableExistSql(name);
    var q := Session.QueryRow(Session.Raw(s, probe.0, probe.1));
    ScanTextExact(q.out, name);
    Session.Step(q.session, ScanText(q.out) == name)
  }
}

=== FILE: values.dfy ===
/**
 * Values shared by every layer of the mapper: the Go `interface{}` values that
 * are bound to statements, the `error` values that operations return, and the
 * `strings.Join` helper that every statement builder relies on.
 */
module Values {

  datatype Option<+T> = None | Some(value: T)

  /** A Go `error`; two errors are the same when their messages are. */
  datatype Error = Error(message: string)

  /** The `(T, error)` pair of a Go call that either succeeds or fails. */
  datatype Result<+T> = Ok(value: T) | Err(error: Error)

  /**
   * A dynamically typed Go value as it travels through `...interface{}`
   * parameters: a bound SQL argument, a clause-generator argument, a record
   * member value.
   */
  datatype Value =
    | Null
    | Int(i: int)
    | Str(s: string)
    | List(items: seq<Value>)
    | Dict(entries: map<string, Value>)

  /** `[]string` passed where `interface{}` is expected. */
  function Strs(names: seq<string>): (r: seq<Value>)
    ensures |r| == |names|
    ensures forall i :: 0 <= i < |names| ==> r[i] == Str(names[i])
  {
    if |names| == 0 then [] else [Str(names[0])] + Strs(names[1..])
  }

  /** `strings.Join(parts, sep)`. */
  function Join(parts: seq<string>, sep: string): (r: string)
  {
    if |parts| == 0 then ""
    else if |parts| == 1 then parts[0]
    else parts[0] + sep + Join(parts[1..], sep)
  }

  /** Joining two non-empty lists puts exactly one separator between them. */
  lemma {:induction false} JoinAppend(p: seq<string>, q: seq<string>, sep: string)
    requires |p| > 0 && |q| > 0
    ensures Join(p + q, sep) == Join(p, sep) + sep + Join(q, sep)
  {
    if |p| == 1 {
      assert (p + q)[1..] == q;
    } else {
      assert (p + q)[1..] == p[1..] + q;
      JoinAppend(p[1..], q, sep);
    }
  }

  lemma JoinTwo(p: seq<string>, sep: string)
    requires |p| == 2
    ensures Join(p, sep) == p[0] + sep + p[1]
  {
    assert Join(p[1..], sep) == p[1];
  }

  /** The joined text is every part plus one separator between neighbours. */
  lemma {:induction false} JoinLength(p: seq<string>, sep: string)
    requires |p| > 0
    ensures |Join(p, sep)| == TotalLength(p) + (|p| - 1) * |sep|
  {
    if |p| > 1 {
      JoinLength(p[1..], sep);
    }
  }

  function TotalLength(p: seq<string>): (r: nat)
  {
    if |p| == 0 then 0 else |p[0]| + TotalLength(p[1..])
  }

  /** Concatenation of a list of lists, as repeated `append(xs, ys...)`. */
  function Flatten<T>(xss: seq<seq<T>>): (r: seq<T>)
  {
    if |xss| == 0 then [] else xss[0] + Flatten(xss[1..])
  }

  lemma {:induction false} FlattenAppend<T>(a: seq<seq<T>>, b: seq<seq<T>>)
    ensures Flatten(a + b) == Flatten(a) + Flatten(b)
  {
    if |a| == 0 {
      assert a + b == b;
    } else {
      assert (a + b)[1..] == a[1..] + b;
      FlattenAppend(a[1..], b);
    }
  }

  /** `strings.Split(s, string(sep))`: always at least one part. */
  function Split(s: string, sep: char): (r: seq<string>)
    ensures |r| > 0
    decreases |s|
  {
    if |s| == 0 then [""]
    else
      var rest := Split(s[1..], sep);
      if s[0] == sep then [""] + rest else [[s[0]] + rest[0]] + rest[1..]
  }

  /** A text without the separator splits into itself alone. */
  lemma {:induction false} SplitNoSeparator(s: string, sep: char)
    requires sep !in s
    ensures Split(s, sep) == [s]
    decreases |s|
  {
    if |s| > 0 {
      SplitNoSeparator(s[1..], sep);
      assert [s[0]] + s[1..] == s;
    }
  }

  /** Splitting at the first separator: the text before it becomes the first part. */
  lemma {:induction false} SplitAtFirst(p: string, sep: char, rest: string)
    requires sep !in p
    ensures Split(p + [sep] + rest, sep) == [p] + Split(rest, sep)
    decreases |p|
  {
    if |p| == 0 {
      assert p + [sep] + rest == [sep] + rest;
      assert ([sep] + rest)[1..] == rest;
    } else {
      var t := p + [sep] + rest;
      assert t[0] == p[0];
      assert t[1..] == p[1..] + [sep] + rest;
      SplitAtFirst(p[1..], sep, rest);
      assert [p[0]] + p[1..] == p;
    }
  }

  /**
   * Splitting undoes joining, provided no part contains the separator:
   * `strings.Split(strings.Join(parts, sep), sep) == parts`.
   */
  lemma {:induction false} SplitJoin(parts: seq<string>, sep: char)
    requires |parts| > 0
    requires forall i :: 0 <= i < |parts| ==> sep !in parts[i]
    ensures Split(Join(parts, [sep]), sep) == parts
  {
    if |parts| == 1 {
      SplitNoSeparator(parts[0], sep);
    } else {
      SplitJoin(parts[1..], sep);
      SplitAtFirst(parts[0], sep, Join(parts[1..], [sep]));
      assert [parts[0]] + parts[1..] == parts;
    }
  }
}
